=== FILE: README.md ===
# Hcd2Namespace — a Dafny model of the simulated filter and disperser wheels

`Hcd2Namespace` is the OPC UA namespace of the second HCD simulator. It builds a
tree of variable nodes under a `HelloWorld` root folder and serves `browse`,
`read` and `write` requests on it. It also simulates two slow mechanisms, a
filter wheel and a disperser wheel, each with eight named slots.

A client sets a wheel by writing a slot name to the wheel's *demand* variable
(`filter`, `disperser`). The namespace then moves the wheel's *position*
variable (`filterPos`, `disperserPos`) one slot forward per run of the increment
routine (`incFilterPos`, `incDisperserPos`), until the slot under the position
carries the demanded name. The first run happens inside the write. Each run that
still sees a difference after moving schedules one more run, one second later.

The model has these modules:

- `Catalogue`: the two slot tables and the `Wheel` enumeration.
- `CatchUp`: the increment routine as a pure state machine over an arbitrary
  catalogue. A wheel is a `Pair` of demand, position, and the number of
  scheduled runs that have not fired yet. `Step` is one run. `Advance` applies
  a run to the pair. `ClientWriteDemand` is a write followed by its synchronous
  run. `Tick`/`Fire`/`RunTicks` are timer events. `Run` is any interleaving of
  demand writes, position writes and timer events.
- `AddressSpace`: node ids, values, access levels, delegates, references and
  node classes.
- `Policies`: the two identity-to-access-level lambdas of the admin-restricted
  nodes.
- `Bootstrap`: the constructor. It holds the node tables, the id construction,
  every node in the order it is added, and the resulting node map.
- `Dispatch`: `browse`, `read` and `write` over the node map. It also holds the
  increment routine on the node map (`IncPos`), with its runtime exceptions,
  and the timer events (`FireTick`). `View` maps a well-typed node map to the
  abstract `CatchUp.Pair`. The refinement lemmas show that the node-map
  operations are the abstract ones.

The toolkit's per-node `readAttribute` and `writeAttribute` are parameters
(`AttributeReader`, `AttributeWriter`). Delegates, access checks and value
conversion live inside them, and the model does not fix their behaviour. The
scheduler is modelled by the count of outstanding runs. Which outstanding run
fires next does not matter, because every run of the same wheel does the same
thing.

Where a reader might expect otherwise, the model follows the code:

- The first move happens synchronously inside the write, not on the first timer
  event. Reaching a slot `d` steps away takes one move inside the write plus
  `d - 1` timer events (`CatchUp.WriteThenConverge`).
- An exception thrown by the increment routine inside `write` is not a
  `UaException`. It therefore escapes the whole batch: no status list is
  completed, and the nodes written before it keep their new values
  (`Dispatch.WriteOutcome.Aborted`; `Dispatch.Trigger` returns the state as it
  was on entry, and `Dispatch.WriteAppend` carries earlier requests' effects).
- Inside a scheduled run, the same exception only ends that chain (`Dispatch.FireTick`).
- The position variables are read-write like every row of the scalar table, and
  writing one triggers nothing. A position write that leaves the slot differing
  from the demand while no run is outstanding stalls the wheel until the next
  demand write (`CatchUp.PositionWriteStalls`). The position is guaranteed to
  reach the demand when no position write follows the last demand write
  (`CatchUp.RunInvariant`). It may still get there after a later position write,
  for example when a run was already outstanding or the written slot names the
  demand; only a position write made while no run is outstanding can stall it.

## Model

| member | source | states |
|---|---|---|
| Catalogue.SlotsWellFormed | hcd2OpcServer/src/main/java/csw/opc/server/Hcd2Namespace.java:84-104 | Both wheel catalogues have eight slots with pairwise distinct names, so a catalogue demand names exactly one slot. |
| CatchUp.Dist | hcd2OpcServer/src/main/java/csw/opc/server/Hcd2Namespace.java:622 | The forward distance between two slots of the `(pos + 1) % length` cycle is below the catalogue length, and is zero exactly when the slots coincide. |
| CatchUp.Step | hcd2OpcServer/src/main/java/csw/opc/server/Hcd2Namespace.java:616-644 | One run keeps the position a valid index. On a slot that already carries the demand it is idempotent and schedules nothing. Otherwise the position becomes `(pos + 1) % N`. It reschedules exactly when the new slot still differs from the demand. |
| CatchUp.Advance | hcd2OpcServer/src/main/java/csw/opc/server/Hcd2Namespace.java:616-629 | A run moves the position as `Step` decides and leaves the wheel live: any difference between slot and demand has a run outstanding. It changes nothing on a converged wheel. It adds one outstanding run exactly when the wheel is still not converged. |
| CatchUp.ClientWriteDemand | hcd2OpcServer/src/main/java/csw/opc/server/Hcd2Namespace.java:589-594 | A demand write followed by its synchronous run stores the demand and leaves the wheel live. It moves nothing exactly when the current slot already names the new demand. It adds at most one outstanding run. |
| CatchUp.Tick | hcd2OpcServer/src/main/java/csw/opc/server/Hcd2Namespace.java:625-627 | A fired run consumes itself, keeps the wheel live and never increases the outstanding count. On a converged wheel it only consumes itself. |
| CatchUp.Fire | hcd2OpcServer/src/main/java/csw/opc/server/Hcd2Namespace.java:626 | A timer event keeps the position valid and the demand unchanged, never increases the outstanding count, and does nothing when no run is outstanding. |
| CatchUp.FireKeepsLive | hcd2OpcServer/src/main/java/csw/opc/server/Hcd2Namespace.java:616-628 | A timer event keeps a live wheel live, and leaves any wheel that had a run outstanding live. |
| CatchUp.RunTicks | hcd2OpcServer/src/main/java/csw/opc/server/Hcd2Namespace.java:626 | Any number of consecutive timer events keep the position a valid index and the demand unchanged. |
| CatchUp.AdvanceTowards | hcd2OpcServer/src/main/java/csw/opc/server/Hcd2Namespace.java:621-623 | For a catalogue demand, a run brings the position exactly one slot closer to the demanded slot, or keeps it there. |
| CatchUp.NoOvershoot | hcd2OpcServer/src/main/java/csw/opc/server/Hcd2Namespace.java:621 | Once converged, further timer events never move the position, however many overlapping chains are outstanding. Each event drains exactly one chain. |
| CatchUp.TicksApproach | hcd2OpcServer/src/main/java/csw/opc/server/Hcd2Namespace.java:616-629 | Each timer event before arrival moves one slot closer. The outstanding count is kept until the arriving run, which does not reschedule. |
| CatchUp.RunTicksAdd | hcd2OpcServer/src/main/java/csw/opc/server/Hcd2Namespace.java:626 | Timer events compose: a+b events equal a events followed by b events. |
| CatchUp.Run | hcd2OpcServer/src/main/java/csw/opc/server/Hcd2Namespace.java:578-597 | Any interleaving of demand writes, in-range position writes and timer events keeps the position a valid index. |
| CatchUp.Converges | hcd2OpcServer/src/main/java/csw/opc/server/Hcd2Namespace.java:616-629 | For a catalogue demand, timer events alone reach the demanded slot and then drain every chain. This takes exactly `QuiesceTime` events, and a run stays outstanding until then. |
| CatchUp.WriteThenConverge | hcd2OpcServer/src/main/java/csw/opc/server/Hcd2Namespace.java:589-594 | After a write of a catalogue name, the position arrives after exactly `Dist` moves (at most 7 for eight slots): one inside the write, the rest on timer events, never earlier. A write of the current slot's name moves nothing. |
| CatchUp.NeverSettles | hcd2OpcServer/src/main/java/csw/opc/server/Hcd2Namespace.java:625-627 | A demand outside the catalogue reschedules on every run, so the outstanding count never drops. |
| CatchUp.CyclesInOrder | hcd2OpcServer/src/main/java/csw/opc/server/Hcd2Namespace.java:622 | With a demand outside the catalogue, the j-th timer event (j below the length) puts the position exactly j slots ahead. |
| CatchUp.NonCataloguePeriodic | hcd2OpcServer/src/main/java/csw/opc/server/Hcd2Namespace.java:616-629 | With a demand outside the catalogue, the wheel is back in its exact starting state after one full turn: the chain cycles forever. |
| CatchUp.NonCatalogueVisitsAll | hcd2OpcServer/src/main/java/csw/opc/server/Hcd2Namespace.java:622 | With a demand outside the catalogue, every slot i is under the position after exactly `Dist(pos, i)` timer events. |
| CatchUp.RunInvariant | hcd2OpcServer/src/main/java/csw/opc/server/Hcd2Namespace.java:578-597 | Over any interleaving of demand writes, position writes and timer events, outstanding runs grow by at most one per demand write. The wheel is live at the end when the last client write was a demand write, or when a live wheel saw no client write. |
| CatchUp.PositionWriteStalls | hcd2OpcServer/src/main/java/csw/opc/server/Hcd2Namespace.java:294-296 | A client write of the position that lands on a slot differing from the demand, with no run outstanding, leaves the wheel not live, and no number of timer events moves it. |
| CatchUp.InitialConverged | hcd2OpcServer/src/main/java/csw/opc/server/Hcd2Namespace.java:130-133 | Both wheels start at slot 0 holding slot 0's name, already converged, with nothing scheduled. |
| CatchUp.InitialWriteSteps | hcd2OpcServer/src/main/java/csw/opc/server/Hcd2Namespace.java:130-133 | From the initial state, writing slot k's name (k > 0) moves to slot 1 inside the write; k - 1 timer events then finish the move. |
| Policies.OnlyAdminCanRead | hcd2OpcServer/src/main/java/csw/opc/server/Hcd2Namespace.java:335-341 | The identity may read, and may write, exactly when it is the string "admin". |
| Policies.OnlyAdminCanWrite | hcd2OpcServer/src/main/java/csw/opc/server/Hcd2Namespace.java:370-376 | Every identity may read. It may write exactly when it is the string "admin". |
| Policies.GrantByIdentity | hcd2OpcServer/src/main/java/csw/opc/server/Hcd2Namespace.java:335-376 | Admin gets READ_WRITE under both policies. Anyone else gets NONE on OnlyAdminCanRead and READ_ONLY on OnlyAdminCanWrite. |
| Bootstrap.AllIdsUnique | hcd2OpcServer/src/main/java/csw/opc/server/Hcd2Namespace.java:181-205 | No two nodes the constructor adds share an id, so no `addNode` replaces an earlier node. |
| Bootstrap.PairIdsDistinct | hcd2OpcServer/src/main/java/csw/opc/server/Hcd2Namespace.java:207-210 | The two demand ids differ, the two position ids differ, and no demand id equals a position id. |
| Bootstrap.AddNodesKeys | hcd2OpcServer/src/main/java/csw/opc/server/Hcd2Namespace.java:191 | Adding nodes adds exactly their ids as keys. |
| Bootstrap.AddNodes | hcd2OpcServer/src/main/java/csw/opc/server/Hcd2Namespace.java:191 | Adding nodes keeps every existing key, adds every added node's id, and keeps the node added last under its id. |
| Bootstrap.AddNodesOthers | hcd2OpcServer/src/main/java/csw/opc/server/Hcd2Namespace.java:191 | Adding nodes leaves any key that none of them uses unchanged. |
| Bootstrap.AddNodesKeepsAll | hcd2OpcServer/src/main/java/csw/opc/server/Hcd2Namespace.java:191 | Adding nodes with unique ids keeps every one of them under its own id. |
| Bootstrap.BuildHoldsAll | hcd2OpcServer/src/main/java/csw/opc/server/Hcd2Namespace.java:174-205 | The constructed map holds exactly the added nodes, each under its own id. |
| Bootstrap.Build | hcd2OpcServer/src/main/java/csw/opc/server/Hcd2Namespace.java:174-215 | The constructed map holds the `HelloWorld` root, and holds the `sqrt(x)` method node, the last node added, under its id. |
| Bootstrap.ScalarInBuild | hcd2OpcServer/src/main/java/csw/opc/server/Hcd2Namespace.java:288-309 | Every scalar row is in the map under `HelloWorld/ScalarTypes/` plus its name. |
| Bootstrap.WheelRows | hcd2OpcServer/src/main/java/csw/opc/server/Hcd2Namespace.java:130-133 | The ids built from the namespace prefix (lines 207-210) find the scalar rows. Each demand holds slot 0's name and each position holds 0, as read-write `String`/`Int32` variables. |
| Bootstrap.AdminNodesRestricted | hcd2OpcServer/src/main/java/csw/opc/server/Hcd2Namespace.java:312-380 | The two admin variables carry their restricting policies and no fixed user access level. |
| Bootstrap.RootInBuild | hcd2OpcServer/src/main/java/csw/opc/server/Hcd2Namespace.java:493-528 | The root organizes the five folders in the order they are added, and has `sqrt(x)` as a forward component. |
| Dispatch.Browse | hcd2OpcServer/src/main/java/csw/opc/server/Hcd2Namespace.java:535-543 | Browse succeeds exactly for ids in the map, returning that node's references. Otherwise it fails with Bad_NodeIdUnknown. |
| Dispatch.BrowseStarted | hcd2OpcServer/src/main/java/csw/opc/server/Hcd2Namespace.java:535-543 | On the constructed namespace, browse succeeds exactly for the ids the constructor added. The root lists six references. |
| Dispatch.Read | hcd2OpcServer/src/main/java/csw/opc/server/Hcd2Namespace.java:546-572 | One result per request, in request order. Slot i depends only on request i and the random draw of its call: Bad_NodeIdUnknown for an unknown id, otherwise that node's attribute read for the request. |
| Dispatch.ReadLoop | hcd2OpcServer/src/main/java/csw/opc/server/Hcd2Namespace.java:553-569 | The loop that appends one result per request computes exactly the batch result. |
| Dispatch.IncPos | hcd2OpcServer/src/main/java/csw/opc/server/Hcd2Namespace.java:616-644 | The routine throws exactly when a node is missing, a value has the wrong class, or the position is out of range. Otherwise it performs the abstract `Advance`. The node map changes only in the position node's value, as `setValue` does, and the other wheel's schedule is untouched. |
| Dispatch.FireTick | hcd2OpcServer/src/main/java/csw/opc/server/Hcd2Namespace.java:616-644 | A fired run of a well-typed wheel is the abstract `Tick`, and the node map changes only in the position node's value. A run that throws only ends its chain: the count drops by one and nothing else changes. With nothing scheduled nothing happens. The other wheel's schedule is untouched. |
| Dispatch.FireTickSeparate | hcd2OpcServer/src/main/java/csw/opc/server/Hcd2Namespace.java:616-644 | A fired run of one wheel leaves the other wheel's demand, position and schedule unchanged. |
| Dispatch.FireTickRefines | hcd2OpcServer/src/main/java/csw/opc/server/Hcd2Namespace.java:626 | One timer event of a well-typed wheel, fired or not, is the abstract `Fire`. |
| Dispatch.FireTicksRefines | hcd2OpcServer/src/main/java/csw/opc/server/Hcd2Namespace.java:626 | Any number of timer events on the node map do what the abstract `RunTicks` does. |
| Dispatch.FireTicks | hcd2OpcServer/src/main/java/csw/opc/server/Hcd2Namespace.java:626 | Consecutive timer events of one wheel keep the namespace index, the set of node ids and the other wheel's schedule. |
| Dispatch.FireTicksWellTyped | hcd2OpcServer/src/main/java/csw/opc/server/Hcd2Namespace.java:616-644 | Timer events keep a well-typed wheel well typed, so no scheduled run of it ever throws. |
| Dispatch.Triggered | hcd2OpcServer/src/main/java/csw/opc/server/Hcd2Namespace.java:589-595 | A request triggers a wheel exactly when its node exists, its write succeeded, and its id equals a demand id. The attribute id plays no part. It never triggers both wheels. |
| Dispatch.WriteOne | hcd2OpcServer/src/main/java/csw/opc/server/Hcd2Namespace.java:578-611 | An unknown id yields Bad_NodeIdUnknown and changes nothing. A failed write yields its own status and changes nothing. A successful write that triggers nothing is Good, stores the written node and touches no schedule. A triggering write stores the node and then runs that wheel's routine once, leaving the other schedule alone. |
| Dispatch.Trigger | hcd2OpcServer/src/main/java/csw/opc/server/Hcd2Namespace.java:591-597 | The synchronous run completes with Good exactly when the wheel is well typed. It then performs the abstract `Advance`, changing only the position node's value. When the routine throws, the outcome is aborted with the state as it was on entry, so the node just written keeps its new value. |
| Dispatch.WriteBatch | hcd2OpcServer/src/main/java/csw/opc/server/Hcd2Namespace.java:575-614 | A completed batch has one status per request, and every unknown id gets Bad_NodeIdUnknown in its own slot. The namespace index and the set of node ids are unchanged. |
| Dispatch.NoDemandNoRun | hcd2OpcServer/src/main/java/csw/opc/server/Hcd2Namespace.java:589-595 | A batch addressing no demand variable always completes and leaves both wheels' schedules unchanged. |
| Dispatch.WriteAppend | hcd2OpcServer/src/main/java/csw/opc/server/Hcd2Namespace.java:578-611 | A split batch runs its second part on the state the first part left. |
| Dispatch.UnknownIdInert | hcd2OpcServer/src/main/java/csw/opc/server/Hcd2Namespace.java:608-610 | Inserting a request for an unknown id anywhere in a batch only inserts Bad_NodeIdUnknown at that slot. It changes neither the other statuses nor the final state. |
| Dispatch.UnknownFirst | hcd2OpcServer/src/main/java/csw/opc/server/Hcd2Namespace.java:608-610 | An unknown id at the head of a batch only prepends its status. |
| Dispatch.OtherWritesSeparate | hcd2OpcServer/src/main/java/csw/opc/server/Hcd2Namespace.java:589-595 | A batch addressing neither of a wheel's variables leaves that wheel's demand, position and schedule unchanged. |
| Dispatch.OtherWriteSeparate | hcd2OpcServer/src/main/java/csw/opc/server/Hcd2Namespace.java:589-595 | One request addressing neither of a wheel's variables leaves that wheel unchanged, even when it triggers the other wheel. |
| Dispatch.WriteDemandRefines | hcd2OpcServer/src/main/java/csw/opc/server/Hcd2Namespace.java:580-597 | A successful write of a string to a wheel's demand is Good and is exactly the abstract `ClientWriteDemand`. The other wheel is untouched. |
| Dispatch.PositionWriteRefines | hcd2OpcServer/src/main/java/csw/opc/server/Hcd2Namespace.java:589-597 | A successful integer write to a wheel's position is Good and schedules nothing. In range it is the abstract position-write event; out of range the wheel becomes ill typed, so its next run throws. |
| Dispatch.StartedAtInitial | hcd2OpcServer/src/main/java/csw/opc/server/Hcd2Namespace.java:174-210 | After construction both wheels are well typed and in the abstract initial, converged state. |
| Dispatch.WriteConverges | hcd2OpcServer/src/main/java/csw/opc/server/Hcd2Namespace.java:589-629 | On the node map, a successful catalogue write followed by `QuiesceTime` timer events reaches the demanded slot with nothing scheduled. A run is outstanding at every earlier event. |

## Left out

- The OPC UA toolkit's internals: the per-node attribute machinery, access checks, delegates, subscriptions, monitored items, history and the event model. `readAttribute` and `writeAttribute` are parameters. Write access on the restricted nodes is enforced inside them.
- The reference from the server's `Objects` folder to the root, which is added to another namespace, and references the toolkit adds to nodes (type definitions).
- Real time and threads. The one-second delay and the scheduler's thread pool become a count of outstanding runs and explicit timer events. Runs are assumed not to interleave with each other or with requests.
- The random generators behind the `Dynamic` variables. Each read request gets the generator's value for its call as a parameter (`draws`). The model does not fix how a node's delegate turns that value into a result, and it records only which generator a node carries.
- The `sqrt(x)` method's invocation, arguments and floating-point arithmetic. Only the method node and its references are modelled.
- Values of every declared type except Boolean, Int32 and String: the other integer widths (Byte, SByte, Int16, Int64, UInt16, UInt32, UInt64), floating point, timestamps, GUIDs, byte strings, XML, localized text, qualified names and node ids. These are `Opaque` values tagged with their type. Array values of those types repeat the opaque element.
- The node map: the source looks nodes up in the server's node map (`server.getNodeMap()`, lines 536, 555, 579 and 617-633), which is shared by all namespaces, as the reference from the standard `Objects` folder (lines 194-200) shows. The model keeps only this namespace's part of that map. Requests reach this namespace only with its own namespace index, so the other namespaces' nodes are never looked up here.
- `Bootstrap.Build`: assumes construction completes. In `Hcd2Namespace.java`, a `UaException` in the constructor's try block (lines 180-214) is only logged. It leaves a partial node map, and the four wheel ids stay null, so no write ever triggers a wheel. An exception while creating the `sqrt(x)` method (lines 503-531) is also only logged. It leaves out the method node and the root's sixth reference, which `Dispatch.BrowseStarted` counts.
- Logging, the namespace URI accessor, and the commented-out code of the file.
- The demo client, which is a separate program. Its writes of names outside the catalogue are covered by `CatchUp.NonCataloguePeriodic`.
- A null value inside a variable's `Variant`. Java would read it as a null demand (which never equals a slot name) or fail on unboxing a null position. The model's values are never null.
- `Dispatch.IncPos`: the Java routine writes the position through `setValue` with a fresh `DataValue`, which carries new timestamps. The model changes only the value.
- `Dispatch.WriteBatch`: its contract states lengths, unknown-id slots and preserved ids only. The guarantee that the batch completes is stated separately in `Dispatch.NoDemandNoRun`, for batches that address no demand variable. A demand write on a node map where the routine throws aborts the batch (see above).
- Position bounds are not enforced against direct client writes of `filterPos`/`disperserPos`. The routine then fails with an index error (`IndexOutOfBounds`), as the Java code does.

=== FILE: address_space.dfy ===
/** The node store's data model: node identifiers, typed values, access levels,
    attribute delegates, references and the three node classes. */
module AddressSpace {
  import opened Wrappers

  /** A Java `int` (the position variables hold boxed `Integer`s). */
  type int32 = x: int | -0x8000_0000 <= x < 0x8000_0000

  /** A node identifier: a namespace index and a string identifier. Two ids are
      equal exactly when both parts are. */
  datatype NodeId = NodeId(namespaceIndex: nat, identifier: string)

  /** The data types the namespace's variables are declared with. */
  datatype DataType =
    | Boolean | Byte | SByte | Int16 | Int32 | Int64 | UInt16 | UInt32 | UInt64
    | Float | Double | String | DateTime | Guid | ByteString | XmlElement
    | LocalizedText | QualifiedName | NodeIdType | Duration | UtcTime

  /** The declared types whose values the model does not carry: every type but
      Boolean, Int32 and String. */
  type OpaqueType = t: DataType | t != Boolean && t != Int32 && t != String witness Byte

  /** A variable's value. Booleans, 32-bit integers and strings are modelled
      exactly; any other value (other integer widths, floating point, timestamps,
      uuids, byte strings, ...) is `Opaque`, tagged with its type only. */
  datatype Variant =
    | VBool(b: bool)
    | VInt32(i: int32)
    | VString(s: string)
    | Opaque(dataType: OpaqueType)
    | VArray(elements: seq<Variant>)

  /** The access levels the namespace hands out. */
  datatype AccessLevel = NoAccess | ReadOnly | ReadWrite

  predicate CanRead(a: AccessLevel) {
    a != NoAccess
  }

  predicate CanWrite(a: AccessLevel) {
    a == ReadWrite
  }

  /** The identity object of the session a request arrives on: either a string
      (a user name) or some other object. */
  datatype Identity = StringIdentity(name: string) | OtherIdentity

  /** Which of the two identity-to-access-level policies a restricted node carries. */
  datatype Policy = AdminOnlyRead | AdminOnlyWrite

  /** Where a generator-backed variable takes its value on every read. */
  datatype Generator = RandomBoolean | RandomInt32 | RandomDouble

  /** The attribute delegate installed on a variable. */
  datatype Delegate =
    | ValueLogging
    | Restricted(policy: Policy)
    | GeneratedThenLogged(generator: Generator)

  datatype RefType = Organizes | HasComponent

  datatype Reference = Reference(source: NodeId, refType: RefType, target: NodeId, forward: bool)

  datatype NodeClass =
    | Folder
    | Variable(
        dataType: DataType,
        value: Variant,
        accessLevel: AccessLevel,
        userAccessLevel: Option<AccessLevel>,
        oneDimensional: bool,
        delegate: Delegate)
    | Method

  datatype Node = Node(id: NodeId, browseName: string, refs: seq<Reference>, cls: NodeClass)

  /** An OPC status code, an unsigned 32-bit value. */
  type StatusCode = x: nat | x < 0x1_0000_0000

  const Good: StatusCode := 0
  const BadNodeIdUnknown: StatusCode := 0x8034_0000

  /** The node store, keyed by identifier. */
  type NodeMap = map<NodeId, Node>
}

=== FILE: bootstrap.dfy ===
/** Construction of the namespace's node tree, in the order the constructor adds
    the nodes: the `HelloWorld` root folder, the array-typed variables, the
    scalar-typed variables (which include the two demand/position pairs), the two
    admin-restricted variables, the generator-backed variables and the `sqrt(x)`
    method node. */
module Bootstrap {
  import opened Wrappers
  import opened AddressSpace
  import opened Catalogue

  /** The prefix the constructor uses to build the four demand/position ids. */
  const NamespacePrefix: string := "HelloWorld/ScalarTypes/"

  /** One row of the scalar-variable table: browse name, declared type, initial value. */
  datatype ScalarRow = ScalarRow(name: string, dataType: DataType, initial: Variant)

  /** The scalar-variable table (`STATIC_SCALAR_NODES`), ending with the two
      demand/position pairs. */
  const StaticScalarNodes: seq<ScalarRow> := [
    ScalarRow("Boolean", Boolean, VBool(false)),
    ScalarRow("Byte", Byte, Opaque(Byte)),
    ScalarRow("SByte", SByte, Opaque(SByte)),
    ScalarRow("Int16", Int16, Opaque(Int16)),
    ScalarRow("Int32", Int32, VInt32(32)),
    ScalarRow("Int64", Int64, Opaque(Int64)),
    ScalarRow("UInt16", UInt16, Opaque(UInt16)),
    ScalarRow("UInt32", UInt32, Opaque(UInt32)),
    ScalarRow("UInt64", UInt64, Opaque(UInt64)),
    ScalarRow("Float", Float, Opaque(Float)),
    ScalarRow("Double", Double, Opaque(Double)),
    ScalarRow("String", String, VString("string value")),
    ScalarRow("DateTime", DateTime, Opaque(DateTime)),
    ScalarRow("Guid", Guid, Opaque(Guid)),
    ScalarRow("ByteString", ByteString, Opaque(ByteString)),
    ScalarRow("XmlElement", XmlElement, Opaque(XmlElement)),
    ScalarRow("LocalizedText", LocalizedText, Opaque(LocalizedText)),
    ScalarRow("QualifiedName", QualifiedName, Opaque(QualifiedName)),
    ScalarRow("NodeId", NodeIdType, Opaque(NodeIdType)),
    ScalarRow("Duration", Duration, Opaque(Double)),
    ScalarRow("UtcTime", UtcTime, Opaque(DateTime)),
    ScalarRow("filter", String, VString("None")),
    ScalarRow("filterPos", Int32, VInt32(0)),
    ScalarRow("disperser", String, VString("Mirror")),
    ScalarRow("disperserPos", Int32, VInt32(0))
  ]

  /** One row of the array-variable table: browse name, declared type, the element
      value repeated four times. */
  datatype ArrayRow = ArrayRow(name: string, dataType: DataType, element: Variant)

  /** The array-variable table (`STATIC_ARRAY_NODES`). */
  const StaticArrayNodes: seq<ArrayRow> := [
    ArrayRow("BooleanArray", Boolean, VBool(false)),
    ArrayRow("ByteArray", Byte, Opaque(Byte)),
    ArrayRow("SByteArray", SByte, Opaque(SByte)),
    ArrayRow("Int16Array", Int16, Opaque(Int16)),
    ArrayRow("Int32Array", Int32, VInt32(32)),
    ArrayRow("Int64Array", Int64, Opaque(Int64)),
    ArrayRow("UInt16Array", UInt16, Opaque(UInt16)),
    ArrayRow("UInt32Array", UInt32, Opaque(UInt32)),
    ArrayRow("UInt64Array", UInt64, Opaque(UInt64)),
    ArrayRow("FloatArray", Float, Opaque(Float)),
    ArrayRow("DoubleArray", Double, Opaque(Double)),
    ArrayRow("StringArray", String, VString("string value")),
    ArrayRow("DateTimeArray", DateTime, Opaque(DateTime)),
    ArrayRow("GuidArray", Guid, Opaque(Guid)),
    ArrayRow("ByteStringArray", ByteString, Opaque(ByteString)),
    ArrayRow("XmlElementArray", XmlElement, Opaque(XmlElement)),
    ArrayRow("LocalizedTextArray", LocalizedText, Opaque(LocalizedText)),
    ArrayRow("QualifiedNameArray", QualifiedName, Opaque(QualifiedName)),
    ArrayRow("NodeIdArray", NodeIdType, Opaque(NodeIdType))
  ]

  // ---------------------------------------------------------------------------
  // Identifiers

  function DemandName(w: Wheel): string {
    match w
    case FilterWheel => "filter"
    case DisperserWheel => "disperser"
  }

  function PositionName(w: Wheel): string {
    match w
    case FilterWheel => "filterPos"
    case DisperserWheel => "disperserPos"
  }

  /** The id the write path compares against to trigger a wheel (`filterNodeId`,
      `disperserNodeId`), built from the namespace prefix. */
  function DemandNodeId(ns: nat, w: Wheel): NodeId {
    NodeId(ns, NamespacePrefix + DemandName(w))
  }

  /** The id the increment routine reads and writes the position through. */
  function PositionNodeId(ns: nat, w: Wheel): NodeId {
    NodeId(ns, NamespacePrefix + PositionName(w))
  }

  /** The id a scalar variable is created under. */
  function ScalarNodeId(ns: nat, name: string): NodeId {
    NodeId(ns, "HelloWorld/ScalarTypes/" + name)
  }

  function RootId(ns: nat): NodeId { NodeId(ns, "HelloWorld") }
  function ArrayFolderId(ns: nat): NodeId { NodeId(ns, "HelloWorld/ArrayTypes") }
  function ScalarFolderId(ns: nat): NodeId { NodeId(ns, "HelloWorld/ScalarTypes") }
  function AdminReadFolderId(ns: nat): NodeId { NodeId(ns, "HelloWorld/OnlyAdminCanRead") }
  function AdminReadNodeId(ns: nat): NodeId { NodeId(ns, "HelloWorld/OnlyAdminCanRead/" + "String") }
  function AdminWriteFolderId(ns: nat): NodeId { NodeId(ns, "HelloWorld/OnlyAdminCanWrite") }
  function AdminWriteNodeId(ns: nat): NodeId { NodeId(ns, "HelloWorld/OnlyAdminCanWrite/" + "String") }
  function DynamicFolderId(ns: nat): NodeId { NodeId(ns, "HelloWorld/Dynamic") }
  function DynamicNodeId(ns: nat, name: string): NodeId { NodeId(ns, "HelloWorld/Dynamic/" + name) }
  function MethodId(ns: nat): NodeId { NodeId(ns, "HelloWorld/sqrt(x)") }

  // ---------------------------------------------------------------------------
  // Nodes

  function Ids(nodes: seq<Node>): seq<NodeId>
  {
    seq(|nodes|, i requires 0 <= i < |nodes| => nodes[i].id)
  }

  /** A folder organizing `children`, in the order they were added. */
  function FolderNode(id: NodeId, name: string, children: seq<NodeId>): Node {
    Node(id, name, seq(|children|, i requires 0 <= i < |children| => Reference(id, Organizes, children[i], true)), Folder)
  }

  function ArrayVariable(ns: nat, row: ArrayRow): Node {
    Node(NodeId(ns, "HelloWorld/ArrayTypes/" + row.name), row.name, [],
      Variable(row.dataType, VArray([row.element, row.element, row.element, row.element]),
        ReadWrite, Some(ReadWrite), true, ValueLogging))
  }

  function ArrayVariables(ns: nat): seq<Node>
  {
    seq(|StaticArrayNodes|, i requires 0 <= i < |StaticArrayNodes| => ArrayVariable(ns, StaticArrayNodes[i]))
  }

  function ScalarVariable(ns: nat, row: ScalarRow): Node {
    Node(ScalarNodeId(ns, row.name), row.name, [],
      Variable(row.dataType, row.initial, ReadWrite, Some(ReadWrite), false, ValueLogging))
  }

  function ScalarVariables(ns: nat): seq<Node>
  {
    seq(|StaticScalarNodes|, i requires 0 <= i < |StaticScalarNodes| => ScalarVariable(ns, StaticScalarNodes[i]))
  }

  function AdminNodes(ns: nat): seq<Node> {
    [ FolderNode(AdminReadFolderId(ns), "OnlyAdminCanRead", [AdminReadNodeId(ns)]),
      Node(AdminReadNodeId(ns), "String", [],
        Variable(String, VString("shh... don't tell the lusers"), ReadWrite, None, false,
          Restricted(AdminOnlyRead))),
      FolderNode(AdminWriteFolderId(ns), "OnlyAdminCanWrite", [AdminWriteNodeId(ns)]),
      Node(AdminWriteNodeId(ns), "String", [],
        Variable(String, VString("admin was here"), ReadWrite, None, false,
          Restricted(AdminOnlyWrite))) ]
  }

  function DynamicVariable(ns: nat, name: string, dt: DataType, initial: Variant, gen: Generator): Node {
    Node(DynamicNodeId(ns, name), name, [],
      Variable(dt, initial, ReadWrite, None, false, GeneratedThenLogged(gen)))
  }

  function DynamicNodes(ns: nat): seq<Node> {
    [ FolderNode(DynamicFolderId(ns), "Dynamic",
        [DynamicNodeId(ns, "Boolean"), DynamicNodeId(ns, "Int32"), DynamicNodeId(ns, "Double")]),
      DynamicVariable(ns, "Boolean", Boolean, VBool(false), RandomBoolean),
      DynamicVariable(ns, "Int32", Int32, VInt32(0), RandomInt32),
      DynamicVariable(ns, "Double", Double, Opaque(Double), RandomDouble) ]
  }

  function MethodNode(ns: nat): Node {
    Node(MethodId(ns), "sqrt(x)", [Reference(MethodId(ns), HasComponent, RootId(ns), false)], Method)
  }

  function RootFolder(ns: nat): Node {
    var organized := FolderNode(RootId(ns), "HelloWorld",
      [ArrayFolderId(ns), ScalarFolderId(ns), AdminReadFolderId(ns), AdminWriteFolderId(ns), DynamicFolderId(ns)]);
    organized.(refs := organized.refs + [Reference(RootId(ns), HasComponent, MethodId(ns), true)])
  }

  /** Every node the namespace adds, in the order it adds them. */
  function AllNodes(ns: nat): seq<Node> {
    [RootFolder(ns)] + Descendants(ns)
  }

  /** The array folder followed by its variables. */
  function ArrayGroupNodes(ns: nat): seq<Node> {
    [FolderNode(ArrayFolderId(ns), "ArrayTypes", Ids(ArrayVariables(ns)))] + ArrayVariables(ns)
  }

  /** The scalar folder followed by its variables. */
  function ScalarGroupNodes(ns: nat): seq<Node> {
    [FolderNode(ScalarFolderId(ns), "ScalarTypes", Ids(ScalarVariables(ns)))] + ScalarVariables(ns)
  }

  /** Everything after the root folder. */
  function Descendants(ns: nat): seq<Node> {
    ArrayGroupNodes(ns) + (ScalarGroupNodes(ns) + (AdminNodes(ns) + (DynamicNodes(ns) + [MethodNode(ns)])))
  }

  /** Adding nodes one by one to the node map; a later node with an id already
      present replaces the earlier one. */
  function AddNodes(m: NodeMap, nodes: seq<Node>): (r: NodeMap)
    ensures m.Keys <= r.Keys
    ensures forall i :: 0 <= i < |nodes| ==> nodes[i].id in r
    // the node added last under an id is the one kept
    ensures |nodes| > 0 ==> r[nodes[|nodes| - 1].id] == nodes[|nodes| - 1]
    decreases |nodes|
  {
    if |nodes| == 0 then m else AddNodes(m[nodes[0].id := nodes[0]], nodes[1..])
  }

  /** The node map after construction. */
  function Build(ns: nat): (nodes: NodeMap)
    ensures RootId(ns) in nodes
    ensures MethodId(ns) in nodes && nodes[MethodId(ns)] == MethodNode(ns)
  {
    assert AllNodes(ns)[0] == RootFolder(ns);
    assert AllNodes(ns)[|AllNodes(ns)| - 1] == MethodNode(ns);
    AddNodes(map[], AllNodes(ns))
  }

  // ---------------------------------------------------------------------------
  // Identifier uniqueness

  predicate UniqueIds(nodes: seq<Node>) {
    forall i, j :: 0 <= i < j < |nodes| ==> nodes[i].id != nodes[j].id
  }

  /** The browse names of the scalar table, in table order. */
  function ScalarNames(): seq<string>
  {
    seq(|StaticScalarNodes|, i requires 0 <= i < |StaticScalarNodes| => StaticScalarNodes[i].name)
  }

  /** The browse names of the array table, in table order. */
  function ArrayNames(): seq<string>
  {
    seq(|StaticArrayNodes|, i requires 0 <= i < |StaticArrayNodes| => StaticArrayNodes[i].name)
  }

  /** Every id of `nodes` lives in namespace `ns` and has one of the characters
      `cs` at index 11, the first character after "HelloWorld/". */
  predicate Tagged(nodes: seq<Node>, ns: nat, cs: set<char>) {
    forall i :: 0 <= i < |nodes| ==>
      nodes[i].id.namespaceIndex == ns && |nodes[i].id.identifier| > 11 && nodes[i].id.identifier[11] in cs
  }

  lemma PrefixInjective(p: string, a: string, b: string)
    requires p + a == p + b
    ensures a == b
  {
    assert a == (p + a)[|p|..];
    assert b == (p + b)[|p|..];
  }

  lemma UniqueConcat(a: seq<Node>, b: seq<Node>)
    requires UniqueIds(a) && UniqueIds(b)
    requires forall i, j :: 0 <= i < |a| && 0 <= j < |b| ==> a[i].id != b[j].id
    ensures UniqueIds(a + b)
  {
    var ab := a + b;
    forall i, j | 0 <= i < j < |ab|
      ensures ab[i].id != ab[j].id
    {
      if j < |a| {
        assert ab[i] == a[i] && ab[j] == a[j];
      } else if i >= |a| {
        assert ab[i] == b[i - |a|] && ab[j] == b[j - |a|];
      } else {
        assert ab[i] == a[i] && ab[j] == b[j - |a|];
      }
    }
  }

  /** Prepending a group tagged `c` to groups tagged otherwise keeps ids unique. */
  lemma TaggedPrepend(a: seq<Node>, b: seq<Node>, ns: nat, c: char, cs: set<char>)
    requires UniqueIds(a) && Tagged(a, ns, {c})
    requires UniqueIds(b) && Tagged(b, ns, cs) && c !in cs
    ensures UniqueIds(a + b) && Tagged(a + b, ns, cs + {c})
  {
    forall i, j | 0 <= i < |a| && 0 <= j < |b|
      ensures a[i].id != b[j].id
    {
      assert a[i].id.identifier[11] != b[j].id.identifier[11];
    }
    UniqueConcat(a, b);
    assert forall i :: 0 <= i < |a + b| ==> (a + b)[i] == if i < |a| then a[i] else b[i - |a|];
  }

  /** A folder followed by the variables created under `prefix`: the folder's id is
      shorter than any child's, and distinct names give distinct child ids. */
  lemma FolderGroupUnique(folder: Node, children: seq<Node>, prefix: string, names: seq<string>)
    requires |folder.id.identifier| < |prefix|
    requires |children| == |names|
    requires forall i :: 0 <= i < |children| ==> children[i].id.identifier == prefix + names[i]
    requires forall i, j :: 0 <= i < j < |names| ==> names[i] != names[j]
    ensures UniqueIds([folder] + children)
  {
    forall i, j | 0 <= i < j < |children|
      ensures children[i].id != children[j].id
    {
      if children[i].id == children[j].id {
        PrefixInjective(prefix, names[i], names[j]);
      }
    }
    assert UniqueIds(children);
    UniqueConcat([folder], children);
  }

  // Proof aids only: the browse names of the two row tables again, in slices of
  // at most ten literals. `ArrayNamesSpelled` and `ScalarNamesSpelled` prove them
  // equal to the tables' names, so the tables stay the single source. Comparing
  // all pairs of a whole table, or of slices taken from it, is too costly for
  // the solver; comparing literal slices is cheap.

  const ArrayNamesA: seq<string> := [
    "BooleanArray", "ByteArray", "SByteArray", "Int16Array", "Int32Array",
    "Int64Array", "UInt16Array", "UInt32Array", "UInt64Array", "FloatArray"]
  const ArrayNamesB: seq<string> := [
    "DoubleArray", "StringArray", "DateTimeArray", "GuidArray", "ByteStringArray",
    "XmlElementArray", "LocalizedTextArray", "QualifiedNameArray", "NodeIdArray"]

  const ScalarNamesA: seq<string> := [
    "Boolean", "Byte", "SByte", "Int16", "Int32", "Int64", "UInt16", "UInt32", "UInt64"]
  const ScalarNamesB: seq<string> := [
    "Float", "Double", "String", "DateTime", "Guid", "ByteString", "XmlElement", "LocalizedText"]
  const ScalarNamesC: seq<string> := [
    "QualifiedName", "NodeId", "Duration", "UtcTime", "filter", "filterPos", "disperser", "disperserPos"]

  lemma ArrayNamesSpelled()
    ensures ArrayNames() == ArrayNamesA + ArrayNamesB
  {
  }

  lemma ScalarNamesSpelledA()
    ensures |ScalarNames()| == 25 && ScalarNames()[..9] == ScalarNamesA
  {
  }

  lemma ScalarNamesSpelledB()
    ensures |ScalarNames()| == 25 && ScalarNames()[9..17] == ScalarNamesB
  {
  }

  lemma ScalarNamesSpelledC()
    ensures |ScalarNames()| == 25 && ScalarNames()[17..] == ScalarNamesC
  {
  }

  lemma ScalarNamesSpelled()
    ensures ScalarNames() == ScalarNamesA + (ScalarNamesB + ScalarNamesC)
  {
    var names := ScalarNames();
    ScalarNamesSpelledA();
    ScalarNamesSpelledB();
    ScalarNamesSpelledC();
    assert names == names[..9] + (names[9..17] + names[17..]);
  }

  lemma ArraySlicesDistinct()
    ensures Distinct(ArrayNamesA) && Distinct(ArrayNamesB)
  {
  }

  lemma ArraySlicesDisjoint()
    ensures Disjoint(ArrayNamesA, ArrayNamesB)
  {
  }

  lemma ArrayNamesDistinct()
    ensures Distinct(ArrayNames())
  {
    ArrayNamesSpelled();
    ArraySlicesDistinct();
    ArraySlicesDisjoint();
    DistinctConcat(ArrayNamesA, ArrayNamesB);
  }

  lemma ScalarSlicesDistinct()
    ensures Distinct(ScalarNamesA) && Distinct(ScalarNamesB) && Distinct(ScalarNamesC)
  {
  }

  lemma ScalarSlicesAB()
    ensures Disjoint(ScalarNamesA, ScalarNamesB)
  {
  }

  lemma ScalarSlicesAC()
    ensures Disjoint(ScalarNamesA, ScalarNamesC)
  {
  }

  lemma ScalarSlicesBC()
    ensures Disjoint(ScalarNamesB, ScalarNamesC)
  {
  }

  lemma ScalarNamesDistinct()
    ensures Distinct(ScalarNames())
  {
    var a, b, c := ScalarNamesA, ScalarNamesB, ScalarNamesC;
    ScalarNamesSpelled();
    ScalarSlicesDistinct();
    ScalarSlicesAB();
    ScalarSlicesAC();
    ScalarSlicesBC();
    DistinctConcat(b, c);
    DisjointConcat(b, c, a);
    assert Disjoint(a, b + c) by {
      forall i, j | 0 <= i < |a| && 0 <= j < |b + c|
        ensures a[i] != (b + c)[j]
      {
        assert (b + c)[j] != a[i];
      }
    }
    DistinctConcat(a, b + c);
  }

  /** A folder whose id starts with `folderPath` and whose children's ids are
      `prefix` + name, the prefix starting with `folderPath`. */
  lemma FolderGroupTagged(folder: Node, children: seq<Node>, prefix: string, ns: nat, c: char)
    requires folder.id.namespaceIndex == ns && |folder.id.identifier| > 11 && folder.id.identifier[11] == c
    requires |prefix| > 11 && prefix[11] == c
    requires forall i :: 0 <= i < |children| ==>
      children[i].id.namespaceIndex == ns && children[i].id.identifier == prefix + children[i].browseName
    ensures Tagged([folder] + children, ns, {c})
  {
    var g := [folder] + children;
    forall i | 0 <= i < |g|
      ensures g[i].id.namespaceIndex == ns && |g[i].id.identifier| > 11 && g[i].id.identifier[11] in {c}
    {
      if i > 0 {
        assert g[i] == children[i - 1];
        assert (prefix + children[i - 1].browseName)[11] == prefix[11];
      }
    }
  }

  /** The array variables carry the table's names, in order, under ids built from
      the array prefix. */
  lemma ArrayVariablesShape(ns: nat)
    ensures |ArrayVariables(ns)| == |ArrayNames()| == 19
    ensures forall i :: 0 <= i < |ArrayVariables(ns)| ==>
      && ArrayVariables(ns)[i].browseName == ArrayNames()[i]
      && ArrayVariables(ns)[i].id == NodeId(ns, "HelloWorld/ArrayTypes/" + ArrayVariables(ns)[i].browseName)
  {
  }

  /** The scalar variables carry the table's names, in order, under ids built
      from the namespace prefix. */
  lemma ScalarVariablesShape(ns: nat)
    ensures |ScalarVariables(ns)| == |ScalarNames()| == |StaticScalarNodes|
    ensures forall i :: 0 <= i < |ScalarVariables(ns)| ==>
      && ScalarVariables(ns)[i] == ScalarVariable(ns, StaticScalarNodes[i])
      && ScalarVariables(ns)[i].browseName == ScalarNames()[i]
      && ScalarVariables(ns)[i].id == NodeId(ns, NamespacePrefix + ScalarVariables(ns)[i].browseName)
  {
  }

  lemma ArrayGroup(ns: nat)
    ensures UniqueIds(ArrayGroupNodes(ns)) && Tagged(ArrayGroupNodes(ns), ns, {'A'})
  {
    var vars := ArrayVariables(ns);
    var folder := FolderNode(ArrayFolderId(ns), "ArrayTypes", Ids(vars));
    ArrayVariablesShape(ns);
    ArrayNamesDistinct();
    FolderGroupUnique(folder, vars, "HelloWorld/ArrayTypes/", ArrayNames());
    FolderGroupTagged(folder, vars, "HelloWorld/ArrayTypes/", ns, 'A');
  }

  lemma ScalarGroup(ns: nat)
    ensures UniqueIds(ScalarGroupNodes(ns)) && Tagged(ScalarGroupNodes(ns), ns, {'S'})
  {
    var vars := ScalarVariables(ns);
    var folder := FolderNode(ScalarFolderId(ns), "ScalarTypes", Ids(vars));
    ScalarVariablesShape(ns);
    ScalarNamesDistinct();
    FolderGroupUnique(folder, vars, "HelloWorld/ScalarTypes/", ScalarNames());
    FolderGroupTagged(folder, vars, "HelloWorld/ScalarTypes/", ns, 'S');
  }

  lemma AdminGroup(ns: nat)
    ensures UniqueIds(AdminNodes(ns)) && Tagged(AdminNodes(ns), ns, {'O'})
  {
    var g := AdminNodes(ns);
    assert |g[0].id.identifier| == 27 && |g[1].id.identifier| == 34;
    assert |g[2].id.identifier| == 28 && |g[3].id.identifier| == 35;
  }

  lemma DynamicGroup(ns: nat)
    ensures UniqueIds(DynamicNodes(ns)) && Tagged(DynamicNodes(ns), ns, {'D'})
  {
    var g := DynamicNodes(ns);
    assert |g[0].id.identifier| == 18 && |g[1].id.identifier| == 26;
    assert |g[2].id.identifier| == 24 && |g[3].id.identifier| == 25;
  }

  lemma DescendantsUnique(ns: nat)
    ensures UniqueIds(Descendants(ns)) && Tagged(Descendants(ns), ns, {'s', 'D', 'O', 'S', 'A'})
  {
    var met := [MethodNode(ns)];
    ArrayGroup(ns);
    ScalarGroup(ns);
    AdminGroup(ns);
    DynamicGroup(ns);
    assert Tagged(met, ns, {'s'});
    TaggedPrepend(DynamicNodes(ns), met, ns, 'D', {'s'});
    TaggedPrepend(AdminNodes(ns), DynamicNodes(ns) + met, ns, 'O', {'s', 'D'});
    TaggedPrepend(ScalarGroupNodes(ns), AdminNodes(ns) + (DynamicNodes(ns) + met), ns, 'S', {'s', 'D', 'O'});
    TaggedPrepend(ArrayGroupNodes(ns), ScalarGroupNodes(ns) + (AdminNodes(ns) + (DynamicNodes(ns) + met)), ns, 'A', {'s', 'D', 'O', 'S'});
  }

  /** No two nodes the namespace adds share an identifier, so no `addNode`
      replaces an earlier node. */
  lemma AllIdsUnique(ns: nat)
    ensures UniqueIds(AllNodes(ns))
  {
    DescendantsUnique(ns);
    UniqueConcat([RootFolder(ns)], Descendants(ns));
  }

  /** The four ids the routines and the write path use are pairwise distinct:
      a write triggers at most one wheel, and moving a position never touches a
      demand. */
  lemma PairIdsDistinct(ns: nat)
    ensures DemandNodeId(ns, FilterWheel) != DemandNodeId(ns, DisperserWheel)
    ensures PositionNodeId(ns, FilterWheel) != PositionNodeId(ns, DisperserWheel)
    ensures forall w, v :: DemandNodeId(ns, w) != PositionNodeId(ns, v)
  {
    forall a: string, b: string | NamespacePrefix + a == NamespacePrefix + b
      ensures a == b
    {
      PrefixInjective(NamespacePrefix, a, b);
    }
  }

  /** Adding nodes only ever adds keys: exactly the ids of the added nodes. */
  lemma {:induction false} AddNodesKeys(m: NodeMap, nodes: seq<Node>)
    ensures AddNodes(m, nodes).Keys == m.Keys + set n | n in nodes :: n.id
    decreases |nodes|
  {
    if |nodes| > 0 {
      AddNodesKeys(m[nodes[0].id := nodes[0]], nodes[1..]);
      assert nodes == [nodes[0]] + nodes[1..];
    }
  }

  /** A key no added node uses keeps its value. */
  lemma {:induction false} AddNodesOthers(m: NodeMap, nodes: seq<Node>, k: NodeId)
    requires k in m
    requires forall i :: 0 <= i < |nodes| ==> nodes[i].id != k
    ensures k in AddNodes(m, nodes) && AddNodes(m, nodes)[k] == m[k]
    decreases |nodes|
  {
    if |nodes| > 0 {
      var rest := nodes[1..];
      assert nodes[0].id != k;
      assert forall j :: 0 <= j < |rest| ==> rest[j] == nodes[j + 1];
      AddNodesOthers(m[nodes[0].id := nodes[0]], rest, k);
    }
  }

  /** Adding nodes with unique ids keeps every one of them, under its own id. */
  lemma {:induction false} AddNodesKeepsAll(m: NodeMap, nodes: seq<Node>)
    requires UniqueIds(nodes)
    ensures forall i :: 0 <= i < |nodes| ==> nodes[i].id in AddNodes(m, nodes) && AddNodes(m, nodes)[nodes[i].id] == nodes[i]
    decreases |nodes|
  {
    if |nodes| > 0 {
      var rest := nodes[1..];
      var m' := m[nodes[0].id := nodes[0]];
      assert forall j :: 0 <= j < |rest| ==> rest[j] == nodes[j + 1];
      assert UniqueIds(rest);
      AddNodesKeepsAll(m', rest);
      AddNodesOthers(m', rest, nodes[0].id);
      forall i | 0 <= i < |nodes|
        ensures nodes[i].id in AddNodes(m, nodes) && AddNodes(m, nodes)[nodes[i].id] == nodes[i]
      {
        if i > 0 {
          assert nodes[i] == rest[i - 1];
        }
      }
    }
  }

  /** The constructed map holds every node the namespace adds, under its own id. */
  lemma BuildHoldsAll(ns: nat)
    ensures forall i :: 0 <= i < |AllNodes(ns)| ==>
      AllNodes(ns)[i].id in Build(ns) && Build(ns)[AllNodes(ns)[i].id] == AllNodes(ns)[i]
    ensures Build(ns).Keys == set n | n in AllNodes(ns) :: n.id
  {
    AllIdsUnique(ns);
    AddNodesKeepsAll(map[], AllNodes(ns));
    AddNodesKeys(map[], AllNodes(ns));
  }

  /** The constructed map holds the `k`-th added node under its id. */
  lemma BuildAt(ns: nat, k: nat)
    requires k < |AllNodes(ns)|
    ensures AllNodes(ns)[k].id in Build(ns) && Build(ns)[AllNodes(ns)[k].id] == AllNodes(ns)[k]
  {
    BuildHoldsAll(ns);
  }

  /** Indexing past a prefix. */
  lemma IndexAfter(a: seq<Node>, b: seq<Node>, k: nat)
    requires k < |b|
    ensures (a + b)[|a| + k] == b[k]
  {
  }

  /** Indexing into the middle part of a right-nested concatenation. */
  lemma IndexMiddle(a: seq<Node>, b: seq<Node>, c: seq<Node>, k: nat)
    requires k < |b|
    ensures (a + (b + c))[|a| + k] == b[k]
  {
    assert (a + (b + c))[|a| + k] == (b + c)[k];
  }

  /** The array group is the array folder and one variable per table row. */
  lemma ArrayGroupLength(ns: nat)
    ensures |ArrayGroupNodes(ns)| == 1 + |StaticArrayNodes| == 20
  {
    assert |ArrayVariables(ns)| == |StaticArrayNodes|;
  }

  /** The scalar group's (1 + i)-th node is the variable of row `i`. */
  lemma ScalarGroupAt(ns: nat, i: nat)
    requires i < |StaticScalarNodes|
    ensures 1 + i < |ScalarGroupNodes(ns)| && ScalarGroupNodes(ns)[1 + i] == ScalarVariable(ns, StaticScalarNodes[i])
  {
    var vars := ScalarVariables(ns);
    assert |vars| == |StaticScalarNodes| && vars[i] == ScalarVariable(ns, StaticScalarNodes[i]);
    IndexAfter([ScalarGroupNodes(ns)[0]], vars, i);
  }

  /** The scalar variables follow the root, the array group and the scalar folder. */
  lemma ScalarAt(ns: nat, i: nat)
    requires i < |StaticScalarNodes|
    ensures 22 + i < |AllNodes(ns)| && AllNodes(ns)[22 + i] == ScalarVariable(ns, StaticScalarNodes[i])
  {
    var sg := ScalarGroupNodes(ns);
    var ag := ArrayGroupNodes(ns);
    var rest := AdminNodes(ns) + (DynamicNodes(ns) + [MethodNode(ns)]);
    ArrayGroupLength(ns);
    ScalarGroupAt(ns, i);
    IndexMiddle(ag, sg, rest, 1 + i);
    assert Descendants(ns) == ag + (sg + rest);
    IndexAfter([RootFolder(ns)], Descendants(ns), 21 + i);
  }

  /** Every row of the scalar table is in the constructed map, under the id the
      namespace prefix gives its name. */
  lemma ScalarInBuild(ns: nat, i: nat)
    requires i < |StaticScalarNodes|
    ensures ScalarNodeId(ns, StaticScalarNodes[i].name) in Build(ns)
    ensures Build(ns)[ScalarNodeId(ns, StaticScalarNodes[i].name)] == ScalarVariable(ns, StaticScalarNodes[i])
  {
    ScalarAt(ns, i);
    BuildAt(ns, 22 + i);
  }

  /** The demand and position ids are the ids of the scalar-table rows named
      after them, and those rows hold the wheel's first slot and position 0. */
  lemma WheelRows(ns: nat, w: Wheel)
    ensures DemandNodeId(ns, w) in Build(ns) && PositionNodeId(ns, w) in Build(ns)
    ensures Build(ns)[DemandNodeId(ns, w)].cls == Variable(String, VString(Slots(w)[0]), ReadWrite, Some(ReadWrite), false, ValueLogging)
    ensures Build(ns)[PositionNodeId(ns, w)].cls == Variable(Int32, VInt32(0), ReadWrite, Some(ReadWrite), false, ValueLogging)
  {
    var k := if w == FilterWheel then 21 else 23;
    assert StaticScalarNodes[k].name == DemandName(w);
    assert StaticScalarNodes[k + 1].name == PositionName(w);
    ScalarInBuild(ns, k);
    ScalarInBuild(ns, k + 1);
  }

  /** The two admin-restricted variables are in the constructed map with their
      policies installed and no fixed user access level. */
  lemma AdminNodesRestricted(ns: nat)
    ensures AdminReadNodeId(ns) in Build(ns) && AdminWriteNodeId(ns) in Build(ns)
    ensures Build(ns)[AdminReadNodeId(ns)].cls.Variable?
      && Build(ns)[AdminReadNodeId(ns)].cls.delegate == Restricted(AdminOnlyRead)
      && Build(ns)[AdminReadNodeId(ns)].cls.userAccessLevel.None?
    ensures Build(ns)[AdminWriteNodeId(ns)].cls.Variable?
      && Build(ns)[AdminWriteNodeId(ns)].cls.delegate == Restricted(AdminOnlyWrite)
      && Build(ns)[AdminWriteNodeId(ns)].cls.userAccessLevel.None?
  {
    var d := Descendants(ns);
    ArrayGroupLength(ns);
    assert |ScalarVariables(ns)| == |StaticScalarNodes|;
    assert |ScalarGroupNodes(ns)| == 26;
    assert d[47] == AdminNodes(ns)[1] && d[49] == AdminNodes(ns)[3];
    assert AllNodes(ns)[48] == d[47] && AllNodes(ns)[50] == d[49];
    BuildAt(ns, 48);
    BuildAt(ns, 50);
  }

  /** The root folder organizes the five sub-folders, in the order they are
      added, and has the `sqrt(x)` method as a component. */
  lemma RootInBuild(ns: nat)
    ensures RootId(ns) in Build(ns)
    ensures var refs := Build(ns)[RootId(ns)].refs;
      && |refs| == 6
      && (forall i :: 0 <= i < 6 ==> refs[i].source == RootId(ns) && refs[i].forward)
      && (forall i :: 0 <= i < 5 ==> refs[i].refType == Organizes)
      && refs[5].refType == HasComponent
      && [refs[0].target, refs[1].target, refs[2].target, refs[3].target, refs[4].target, refs[5].target]
        == [ArrayFolderId(ns), ScalarFolderId(ns), AdminReadFolderId(ns), AdminWriteFolderId(ns), DynamicFolderId(ns), MethodId(ns)]
  {
    assert AllNodes(ns)[0] == RootFolder(ns);
    BuildAt(ns, 0);
    RootFolderRefs(ns);
  }

  /** The root folder's own references, as the constructor adds them. */
  lemma RootFolderRefs(ns: nat)
    ensures var refs := RootFolder(ns).refs;
      && |refs| == 6
      && (forall i :: 0 <= i < 6 ==> refs[i].source == RootId(ns) && refs[i].forward)
      && (forall i :: 0 <= i < 5 ==> refs[i].refType == Organizes)
      && refs[5].refType == HasComponent
      && [refs[0].target, refs[1].target, refs[2].target, refs[3].target, refs[4].target, refs[5].target]
        == [ArrayFolderId(ns), ScalarFolderId(ns), AdminReadFolderId(ns), AdminWriteFolderId(ns), DynamicFolderId(ns), MethodId(ns)]
  {
  }
}

=== FILE: catalogue.dfy ===
/** The two eight-slot wheels whose positions the namespace simulates, and the
    fixed catalogues of slot names (`FILTERS` and `DISPERSERS`). */
module Catalogue {

  /** The filter wheel's slots, in wheel order. */
  const Filters: seq<string> := [
    "None", "g_G0301", "r_G0303", "i_G0302",
    "z_G0304", "Z_G0322", "Y_G0323", "u_G0308"
  ]

  /** The disperser wheel's slots, in wheel order. */
  const Dispersers: seq<string> := [
    "Mirror", "B1200_G5301", "R831_G5302", "B600_G5303",
    "B600_G5307", "R600_G5304", "R400_G5305", "R150_G5306"
  ]

  /** No slot name occurs twice, so a name identifies its slot. */
  predicate Distinct(cat: seq<string>) {
    forall i, j :: 0 <= i < j < |cat| ==> cat[i] != cat[j]
  }

  /** No name occurs in both tables. */
  predicate Disjoint(a: seq<string>, b: seq<string>) {
    forall i, j :: 0 <= i < |a| && 0 <= j < |b| ==> a[i] != b[j]
  }

  /** Joining two name tables keeps the names distinct when they share none. */
  lemma DistinctConcat(a: seq<string>, b: seq<string>)
    requires Distinct(a) && Distinct(b) && Disjoint(a, b)
    ensures Distinct(a + b)
  {
    var ab := a + b;
    forall i, j | 0 <= i < j < |ab|
      ensures ab[i] != ab[j]
    {
      if j < |a| {
        assert ab[i] == a[i] && ab[j] == a[j];
      } else if i >= |a| {
        assert ab[i] == b[i - |a|] && ab[j] == b[j - |a|];
      } else {
        assert ab[i] == a[i] && ab[j] == b[j - |a|];
      }
    }
  }

  /** Names disjoint from both halves of a table are disjoint from the table. */
  lemma DisjointConcat(a: seq<string>, b: seq<string>, c: seq<string>)
    requires Disjoint(a, c) && Disjoint(b, c)
    ensures Disjoint(a + b, c)
  {
    forall i, j | 0 <= i < |a + b| && 0 <= j < |c|
      ensures (a + b)[i] != c[j]
    {
      if i < |a| {
        assert (a + b)[i] == a[i];
      } else {
        assert (a + b)[i] == b[i - |a|];
      }
    }
  }

  /** The two simulated wheels; each has its own demand/position pair. */
  datatype Wheel = FilterWheel | DisperserWheel

  /** The catalogue a wheel steps through. */
  function Slots(w: Wheel): seq<string> {
    match w
    case FilterWheel => Filters
    case DisperserWheel => Dispersers
  }

  /** Both catalogues have eight distinct names. */
  lemma SlotsWellFormed(w: Wheel)
    ensures |Slots(w)| == 8
    ensures Distinct(Slots(w))
  {
  }
}

=== FILE: catchup.dfy ===
/** The position catch-up machine of one wheel (`incFilterPos` / `incDisperserPos`),
    over an arbitrary catalogue of slot names.

    A wheel is a demand string, a position index and the number of scheduled
    re-invocations of the increment routine that have not fired yet. A client write
    of the demand runs the routine once synchronously; every fired timer runs it
    once more. The routine moves the position one slot forward unless the slot name
    already equals the demand, and schedules another run while they still differ. */
module CatchUp {
  import opened Wrappers
  import opened Catalogue

  /** One wheel: the demand variable's value, the position variable's value and
      the count of outstanding scheduled runs. Several runs may be outstanding at
      once, because every client write starts its own chain. */
  datatype Pair = Pair(demand: string, pos: int, pending: nat)

  predicate InRange(cat: seq<string>, pos: int) {
    0 <= pos < |cat|
  }

  /** The slot under the position carries the demanded name. */
  predicate Converged(cat: seq<string>, s: Pair)
    requires InRange(cat, s.pos)
  {
    cat[s.pos] == s.demand
  }

  /** The machine never stalls: whenever the position differs from the demand,
      at least one run is still scheduled. */
  predicate Live(cat: seq<string>, s: Pair) {
    InRange(cat, s.pos) && (!Converged(cat, s) ==> s.pending > 0)
  }

  /** Number of forward steps (mod |cat|) that lead from slot `from` to slot `to`. */
  function Dist(cat: seq<string>, from: int, to: int): (d: nat)
    requires InRange(cat, from) && InRange(cat, to)
    ensures d < |cat|
    ensures d == 0 <==> from == to
  {
    if from <= to then to - from else to - from + |cat|
  }

  /** The slot after `pos` on the wheel, written as the source's `(pos + 1) % N`. */
  function Next(cat: seq<string>, pos: int): (p: int)
    requires InRange(cat, pos)
    ensures p == if pos + 1 < |cat| then pos + 1 else 0
  {
    (pos + 1) % |cat|
  }

  /** What one run of the increment routine decides: the new position and
      whether it schedules a further run. */
  datatype Outcome = Outcome(pos: int, reschedule: bool)

  /** One run of the increment routine, with the demand and position it read. */
  function Step(cat: seq<string>, demand: string, pos: int): (o: Outcome)
    requires InRange(cat, pos)
    ensures InRange(cat, o.pos)
    ensures cat[pos] == demand ==> o == Outcome(pos, false)
    ensures cat[pos] != demand ==> o.pos == (if pos + 1 < |cat| then pos + 1 else 0)
    ensures o.reschedule <==> cat[o.pos] != demand
  {
    if cat[pos] == demand then
      Outcome(pos, false)
    else
      var next := Next(cat, pos);
      Outcome(next, cat[next] != demand)
  }

  /** A run of the routine applied to the wheel: the position moves and a
      rescheduled run is added to the outstanding ones. */
  function Advance(cat: seq<string>, s: Pair): (t: Pair)
    requires InRange(cat, s.pos)
    ensures t.demand == s.demand
    ensures t.pos == Step(cat, s.demand, s.pos).pos
    ensures Live(cat, t)
    ensures Converged(cat, s) ==> t == s
    ensures t.pending == s.pending + (if Converged(cat, t) then 0 else 1)
  {
    var o := Step(cat, s.demand, s.pos);
    Pair(s.demand, o.pos, s.pending + (if o.reschedule then 1 else 0))
  }

  /** A client writes demand `d`: the value is stored, then one run happens
      inside the write. */
  function ClientWriteDemand(cat: seq<string>, s: Pair, d: string): (t: Pair)
    requires InRange(cat, s.pos)
    ensures t.demand == d
    ensures Live(cat, t)
    ensures cat[s.pos] == d <==> t == s.(demand := d)
    ensures t.pending <= s.pending + 1
  {
    Advance(cat, s.(demand := d))
  }

  /** One scheduled run fires: it is no longer outstanding, and it runs the routine. */
  function Tick(cat: seq<string>, s: Pair): (t: Pair)
    requires InRange(cat, s.pos) && s.pending > 0
    ensures t.demand == s.demand
    ensures Live(cat, t)
    ensures t.pending <= s.pending
    ensures Converged(cat, s) ==> t == s.(pending := s.pending - 1)
  {
    Advance(cat, s.(pending := s.pending - 1))
  }

  /** The next timer event: nothing fires when no run is outstanding. */
  function Fire(cat: seq<string>, s: Pair): (t: Pair)
    requires InRange(cat, s.pos)
    ensures InRange(cat, t.pos) && t.demand == s.demand
    ensures t.pending <= s.pending
    ensures s.pending == 0 ==> t == s
  {
    if s.pending == 0 then s else Tick(cat, s)
  }

  /** A timer event keeps a live wheel live, and makes any wheel with a run
      outstanding live. */
  lemma FireKeepsLive(cat: seq<string>, s: Pair)
    requires InRange(cat, s.pos)
    ensures Live(cat, s) ==> Live(cat, Fire(cat, s))
    ensures s.pending > 0 ==> Live(cat, Fire(cat, s))
  {
  }

  /** `n` timer events in a row, with no client write in between. */
  function RunTicks(cat: seq<string>, s: Pair, n: nat): (t: Pair)
    requires InRange(cat, s.pos)
    ensures InRange(cat, t.pos)
    ensures t.demand == s.demand
    decreases n
  {
    if n == 0 then s else RunTicks(cat, Fire(cat, s), n - 1)
  }

  /** The events that drive a wheel, interleaved in any order: client writes of
      the demand, client writes of the position variable (which is read-write like
      every row of the scalar table, and triggers nothing), and fired timers. */
  datatype Event = DemandWritten(d: string) | PositionWritten(p: int) | TimerFired

  /** Every position a trace writes is a valid slot (any other value makes the
      next run of the routine throw, see `Dispatch.IncPos`). */
  predicate Admissible(cat: seq<string>, evs: seq<Event>) {
    forall i :: 0 <= i < |evs| && evs[i].PositionWritten? ==> InRange(cat, evs[i].p)
  }

  function Apply(cat: seq<string>, s: Pair, e: Event): (t: Pair)
    requires InRange(cat, s.pos)
    requires e.PositionWritten? ==> InRange(cat, e.p)
    ensures InRange(cat, t.pos)
  {
    match e
    case DemandWritten(d) => ClientWriteDemand(cat, s, d)
    case PositionWritten(p) => s.(pos := p)
    case TimerFired => Fire(cat, s)
  }

  function Run(cat: seq<string>, s: Pair, evs: seq<Event>): (t: Pair)
    requires InRange(cat, s.pos) && Admissible(cat, evs)
    ensures InRange(cat, t.pos)
    decreases |evs|
  {
    if |evs| == 0 then s else Run(cat, Apply(cat, s, evs[0]), evs[1..])
  }

  /** The last client write of a trace, if any. */
  function LastWrite(evs: seq<Event>): Option<Event>
    decreases |evs|
  {
    if |evs| == 0 then None
    else if LastWrite(evs[1..]).Some? then LastWrite(evs[1..])
    else if evs[0].TimerFired? then None
    else Some(evs[0])
  }

  /** Number of client writes of the demand in a trace. */
  function Writes(evs: seq<Event>): nat
    decreases |evs|
  {
    if |evs| == 0 then 0
    else (if evs[0].DemandWritten? then 1 else 0) + Writes(evs[1..])
  }

  /** The position and demand values a wheel starts with. */
  function Initial(w: Wheel): Pair {
    Pair(Slots(w)[0], 0, 0)
  }

  // ---------------------------------------------------------------------------
  // Distance arithmetic

  lemma DistSucc(cat: seq<string>, from: int, to: int)
    requires InRange(cat, from) && InRange(cat, to) && to != from
    ensures Dist(cat, Next(cat, from), to) == Dist(cat, from, to) - 1
  {
  }

  lemma DistAhead(cat: seq<string>, from: int, to: int)
    requires InRange(cat, from) && InRange(cat, to) && Dist(cat, from, to) + 1 < |cat|
    ensures Dist(cat, from, Next(cat, to)) == Dist(cat, from, to) + 1
  {
  }

  lemma DistInjective(cat: seq<string>, from: int, a: int, b: int)
    requires InRange(cat, from) && InRange(cat, a) && InRange(cat, b)
    requires Dist(cat, from, a) == Dist(cat, from, b)
    ensures a == b
  {
  }

  // ---------------------------------------------------------------------------
  // One run towards a catalogue demand

  /** With distinct names and a demand that names slot `k`, a run moves the
      position exactly one slot closer to `k`, and never away from it. */
  lemma {:induction false} AdvanceTowards(cat: seq<string>, k: int, s: Pair)
    requires Distinct(cat) && InRange(cat, k) && InRange(cat, s.pos)
    requires s.demand == cat[k]
    ensures var t := Advance(cat, s);
      Dist(cat, t.pos, k) == (if s.pos == k then 0 else Dist(cat, s.pos, k) - 1)
  {
    if s.pos != k {
      DistSucc(cat, s.pos, k);
    }
  }

  /** A run never overshoots: once the position names the demand it stays,
      whatever number of chains are outstanding. */
  lemma {:induction false} NoOvershoot(cat: seq<string>, s: Pair, n: nat)
    requires InRange(cat, s.pos) && Converged(cat, s)
    ensures RunTicks(cat, s, n).pos == s.pos
    ensures RunTicks(cat, s, n).pending == (if n <= s.pending then s.pending - n else 0)
    decreases n
  {
    if n > 0 {
      NoOvershoot(cat, Fire(cat, s), n - 1);
    }
  }

  /** The first `j` timer events after the last write, with `j` at most the
      distance to the demanded slot, each move the position one slot closer;
      every run but the last keeps exactly one chain going. */
  lemma {:induction false} TicksApproach(cat: seq<string>, k: int, s: Pair, j: nat)
    requires Distinct(cat) && InRange(cat, k) && s.demand == cat[k] && Live(cat, s)
    requires j <= Dist(cat, s.pos, k)
    ensures var t := RunTicks(cat, s, j);
      && Live(cat, t)
      && Dist(cat, t.pos, k) == Dist(cat, s.pos, k) - j
      && t.pending == (if j > 0 && j == Dist(cat, s.pos, k) then s.pending - 1 else s.pending)
    decreases j
  {
    if j > 0 {
      var f := Fire(cat, s);
      assert s.pos != k;
      assert f == Tick(cat, s);
      AdvanceTowards(cat, k, s.(pending := s.pending - 1));
      TicksApproach(cat, k, f, j - 1);
    }
  }

  lemma {:induction false} RunTicksAdd(cat: seq<string>, s: Pair, a: nat, b: nat)
    requires InRange(cat, s.pos)
    ensures RunTicks(cat, s, a + b) == RunTicks(cat, RunTicks(cat, s, a), b)
    decreases a
  {
    if a > 0 {
      RunTicksAdd(cat, Fire(cat, s), a - 1, b);
    }
  }

  /** Ticks needed, with no further write, until no run is outstanding. */
  function QuiesceTime(cat: seq<string>, k: int, s: Pair): nat
    requires InRange(cat, k) && Live(cat, s)
  {
    var d := Dist(cat, s.pos, k);
    if d == 0 then s.pending else d + s.pending - 1
  }

  /** Convergence: when the demand names slot `k`, the timer events alone bring
      the position to `k` and then drain every outstanding chain, after exactly
      `QuiesceTime` events; until then a run is always outstanding. */
  lemma {:induction false} Converges(cat: seq<string>, k: int, s: Pair)
    requires Distinct(cat) && InRange(cat, k) && s.demand == cat[k] && Live(cat, s)
    ensures RunTicks(cat, s, QuiesceTime(cat, k, s)) == Pair(cat[k], k, 0)
    ensures forall n :: 0 <= n < QuiesceTime(cat, k, s) ==> RunTicks(cat, s, n).pending > 0
  {
    var d := Dist(cat, s.pos, k);
    TicksApproach(cat, k, s, d);
    var m := RunTicks(cat, s, d);
    assert m.pos == k;
    NoOvershoot(cat, m, m.pending);
    RunTicksAdd(cat, s, d, m.pending);
    forall n | 0 <= n < QuiesceTime(cat, k, s)
      ensures RunTicks(cat, s, n).pending > 0
    {
      if n <= d {
        TicksApproach(cat, k, s, n);
      } else {
        RunTicksAdd(cat, s, d, n - d);
        NoOvershoot(cat, m, n - d);
      }
    }
  }

  /** Exact step count after a write: if the new demand names slot `k`, the
      position reaches `k` after exactly `Dist(pos, k)` moves (at most |cat| - 1),
      one inside the write and the rest on timer events, and never earlier. */
  lemma {:induction false} WriteThenConverge(cat: seq<string>, k: int, s: Pair)
    requires Distinct(cat) && InRange(cat, k) && InRange(cat, s.pos)
    ensures var d := Dist(cat, s.pos, k);
      var t := ClientWriteDemand(cat, s, cat[k]);
      && d <= |cat| - 1
      && (d == 0 ==> t == s.(demand := cat[k]))
      && (d > 0 ==> RunTicks(cat, t, d - 1).pos == k)
      && (forall j :: 0 <= j < d - 1 ==> RunTicks(cat, t, j).pos != k)
  {
    var d := Dist(cat, s.pos, k);
    var t := ClientWriteDemand(cat, s, cat[k]);
    if d > 0 {
      AdvanceTowards(cat, k, s.(demand := cat[k]));
      TicksApproach(cat, k, t, d - 1);
      forall j | 0 <= j < d - 1
        ensures RunTicks(cat, t, j).pos != k
      {
        TicksApproach(cat, k, t, j);
      }
    }
  }

  // ---------------------------------------------------------------------------
  // A demand outside the catalogue

  /** A demand that names no slot is never reached: every timer event moves the
      position one slot on and reschedules, so the outstanding count never drops. */
  lemma {:induction false} NeverSettles(cat: seq<string>, s: Pair, n: nat)
    requires InRange(cat, s.pos) && s.demand !in cat && s.pending > 0
    ensures RunTicks(cat, s, n).pending == s.pending
    decreases n
  {
    if n > 0 {
      NeverSettles(cat, Fire(cat, s), n - 1);
    }
  }

  /** ... and the position visits the slots in order, one per event. */
  lemma {:induction false} CyclesInOrder(cat: seq<string>, s: Pair, j: nat)
    requires InRange(cat, s.pos) && s.demand !in cat && s.pending > 0
    requires j < |cat|
    ensures Dist(cat, s.pos, RunTicks(cat, s, j).pos) == j
    decreases j
  {
    if j > 0 {
      CyclesInOrder(cat, s, j - 1);
      var p := RunTicks(cat, s, j - 1);
      NeverSettles(cat, s, j - 1);
      RunTicksAdd(cat, s, j - 1, 1);
      DistAhead(cat, s.pos, p.pos);
    }
  }

  /** A timer event on a wheel whose demand names no slot moves one slot on and
      keeps the outstanding count. */
  lemma {:induction false} FireNonCatalogue(cat: seq<string>, p: Pair)
    requires InRange(cat, p.pos) && p.demand !in cat && p.pending > 0
    ensures RunTicks(cat, p, 1) == p.(pos := Next(cat, p.pos))
  {
    assert cat[p.pos] != p.demand;
    assert RunTicks(cat, p, 1) == Fire(cat, p);
  }

  /** The slot |cat| - 1 steps ahead is the one just behind. */
  lemma DistWraps(cat: seq<string>, from: int, to: int)
    requires InRange(cat, from) && InRange(cat, to) && Dist(cat, from, to) == |cat| - 1
    ensures Next(cat, to) == from
  {
  }

  /** ... so after |cat| events the wheel is back in exactly the state it started
      from: the chain runs forever. */
  lemma {:induction false} NonCataloguePeriodic(cat: seq<string>, s: Pair)
    requires InRange(cat, s.pos) && s.demand !in cat && s.pending > 0
    ensures RunTicks(cat, s, |cat|) == s
  {
    var n := |cat|;
    var p := RunTicks(cat, s, n - 1);
    CyclesInOrder(cat, s, n - 1);
    NeverSettles(cat, s, n - 1);
    DistWraps(cat, s.pos, p.pos);
    FireNonCatalogue(cat, p);
    RunTicksAdd(cat, s, n - 1, 1);
  }

  /** ... having passed every slot: slot `i` is under the position after exactly
      `Dist(pos, i)` events. */
  lemma {:induction false} NonCatalogueVisitsAll(cat: seq<string>, s: Pair, i: int)
    requires InRange(cat, s.pos) && s.demand !in cat && s.pending > 0 && InRange(cat, i)
    ensures RunTicks(cat, s, Dist(cat, s.pos, i)).pos == i
  {
    CyclesInOrder(cat, s, Dist(cat, s.pos, i));
    DistInjective(cat, s.pos, RunTicks(cat, s, Dist(cat, s.pos, i)).pos, i);
  }

  // ---------------------------------------------------------------------------
  // Arbitrary interleavings of writes and timer events

  /** Over any interleaving the position stays a valid index and each demand
      write adds at most one outstanding chain. The machine is live at the end
      when the last client write was a demand write, or when a live machine saw
      no client write at all; a position write can leave it stalled (see
      `PositionWriteStalls`). */
  lemma {:induction false} RunInvariant(cat: seq<string>, s: Pair, evs: seq<Event>)
    requires InRange(cat, s.pos) && Admissible(cat, evs)
    ensures Run(cat, s, evs).pending <= s.pending + Writes(evs)
    ensures LastWrite(evs).None? && Live(cat, s) ==> Live(cat, Run(cat, s, evs))
    ensures LastWrite(evs).Some? && LastWrite(evs).value.DemandWritten? ==> Live(cat, Run(cat, s, evs))
    decreases |evs|
  {
    if |evs| > 0 {
      assert Admissible(cat, evs[1..]) by {
        forall i | 0 <= i < |evs[1..]| && evs[1..][i].PositionWritten?
          ensures InRange(cat, evs[1..][i].p)
        {
          assert evs[1..][i] == evs[i + 1];
        }
      }
      RunInvariant(cat, Apply(cat, s, evs[0]), evs[1..]);
    }
  }

  /** A position write that leaves the slot differing from the demand while no
      run is outstanding stalls the wheel: it is not live, and no number of timer
      events changes it until the next demand write. */
  lemma {:induction false} PositionWriteStalls(cat: seq<string>, s: Pair, p: int, n: nat)
    requires InRange(cat, s.pos) && InRange(cat, p) && s.pending == 0 && cat[p] != s.demand
    ensures var t := Apply(cat, s, PositionWritten(p));
      !Live(cat, t) && RunTicks(cat, t, n) == t
    decreases n
  {
    if n > 0 {
      PositionWriteStalls(cat, s, p, n - 1);
      RunTicksAdd(cat, s.(pos := p), n - 1, 1);
    }
  }

  /** Both wheels start already converged, with nothing scheduled. */
  lemma InitialConverged(w: Wheel)
    ensures Live(Slots(w), Initial(w)) && Converged(Slots(w), Initial(w))
    ensures Initial(w).pending == 0
  {
  }

  /** From the initial state, writing slot `k`'s name (k > 0) moves the wheel to
      slot 1 inside the write, after which `k - 1` timer events reach slot `k`. */
  lemma {:induction false} InitialWriteSteps(w: Wheel, k: int)
    requires 0 < k < |Slots(w)|
    ensures var t := ClientWriteDemand(Slots(w), Initial(w), Slots(w)[k]);
      t.pos == 1 && QuiesceTime(Slots(w), k, t) == k - 1
  {
    SlotsWellFormed(w);
    assert Slots(w)[0] != Slots(w)[k];
  }
}

=== FILE: dispatch.dfy ===
/** The namespace's request surface (`browse`, `read`, `write`) and its two
    increment routines (`incFilterPos`, `incDisperserPos`) over the node map.

    The toolkit's per-node attribute access (`readAttribute`, `writeAttribute`,
    with whatever delegates a node carries) is a parameter: the model fixes what
    the namespace does around it, not what it does inside. */
module Dispatch {
  import opened Wrappers
  import opened AddressSpace
  import opened Catalogue
  import CatchUp
  import opened Bootstrap

  /** The namespace's state: its namespace index, the node map, and for each wheel
      the number of scheduled increment runs that have not fired yet. */
  datatype State = State(ns: nat, nodes: NodeMap, filterPending: nat, disperserPending: nat)

  function Pending(st: State, w: Wheel): nat {
    match w
    case FilterWheel => st.filterPending
    case DisperserWheel => st.disperserPending
  }

  function WithPending(st: State, w: Wheel, n: nat): (t: State)
    ensures Pending(t, w) == n
    ensures Pending(t, Other(w)) == Pending(st, Other(w))
    ensures t.ns == st.ns && t.nodes == st.nodes
  {
    match w
    case FilterWheel => st.(filterPending := n)
    case DisperserWheel => st.(disperserPending := n)
  }

  function Other(w: Wheel): Wheel {
    match w
    case FilterWheel => DisperserWheel
    case DisperserWheel => FilterWheel
  }

  /** The state once construction has finished: no run is scheduled yet. */
  function Started(ns: nat): State {
    State(ns, Build(ns), 0, 0)
  }

  // ---------------------------------------------------------------------------
  // Browse

  /** `browse`: the node's references, or a failure with Bad_NodeIdUnknown. */
  function Browse(nodes: NodeMap, id: NodeId): (r: Result<seq<Reference>, StatusCode>)
    ensures r.Ok? <==> id in nodes
    ensures r.Err? ==> r.error == BadNodeIdUnknown
    ensures r.Ok? ==> r.value == nodes[id].refs
  {
    if id in nodes then Ok(nodes[id].refs) else Err(BadNodeIdUnknown)
  }

  /** On the constructed namespace, browsing succeeds exactly for the ids of the
      nodes the constructor added; browsing the root lists its six references. */
  lemma BrowseStarted(ns: nat, id: NodeId)
    ensures Browse(Build(ns), id).Ok? <==> exists i :: 0 <= i < |AllNodes(ns)| && AllNodes(ns)[i].id == id
    ensures id == RootId(ns) ==> Browse(Build(ns), id).Ok? && |Browse(Build(ns), id).value| == 6
  {
    BuildHoldsAll(ns);
    RootInBuild(ns);
    if id in Build(ns) {
      var n :| n in AllNodes(ns) && n.id == id;
      var i :| 0 <= i < |AllNodes(ns)| && AllNodes(ns)[i] == n;
    }
  }

  // ---------------------------------------------------------------------------
  // Read

  datatype ReadValueId = ReadValueId(id: NodeId, attributeId: nat, indexRange: Option<string>)

  /** A read result: a value (absent on failure) and its status. */
  datatype DataValue = DataValue(value: Option<Variant>, status: StatusCode)

  /** The toolkit's `readAttribute` on one node, with the request's context,
      timestamps policy and max age already applied. The last argument is the
      value the server's random generator yields for this call: a generator-backed
      variable draws a fresh one on every read, so two reads of the same node in
      one batch need not agree. */
  type AttributeReader = (Node, ReadValueId, int) -> DataValue

  /** The result for one read request, given its random draw. */
  function ReadOne(nodes: NodeMap, rv: ReadValueId, draw: int, readAttribute: AttributeReader): DataValue {
    if rv.id in nodes then readAttribute(nodes[rv.id], rv, draw) else DataValue(None, BadNodeIdUnknown)
  }

  /** `read`: one result per request, in request order; an unknown node fails its
      own slot with Bad_NodeIdUnknown and nothing else. `draws` holds the random
      generator's value for each request's call. */
  function Read(nodes: NodeMap, rvs: seq<ReadValueId>, draws: seq<int>, readAttribute: AttributeReader): (results: seq<DataValue>)
    requires |draws| == |rvs|
    ensures |results| == |rvs|
    ensures forall i :: 0 <= i < |rvs| ==> results[i] == ReadOne(nodes, rvs[i], draws[i], readAttribute)
    decreases |rvs|
  {
    if |rvs| == 0 then []
    else [ReadOne(nodes, rvs[0], draws[0], readAttribute)] + Read(nodes, rvs[1..], draws[1..], readAttribute)
  }

  /** `read` as the source writes it: a loop appending one result per request. */
  method ReadLoop(nodes: NodeMap, rvs: seq<ReadValueId>, draws: seq<int>, readAttribute: AttributeReader) returns (results: seq<DataValue>)
    requires |draws| == |rvs|
    ensures results == Read(nodes, rvs, draws, readAttribute)
  {
    results := [];
    var i := 0;
    while i < |rvs|
      invariant 0 <= i <= |rvs|
      invariant |results| == i
      invariant forall k :: 0 <= k < i ==> results[k] == ReadOne(nodes, rvs[k], draws[k], readAttribute)
    {
      results := results + [ReadOne(nodes, rvs[i], draws[i], readAttribute)];
      i := i + 1;
    }
  }

  // ---------------------------------------------------------------------------
  // The increment routine on the node map

  /** A runtime exception thrown by the increment routine. */
  datatype Fault = NullPointer | ClassCast | IndexOutOfBounds

  /** `(UaVariableNode) getNodeMap().get(id)`: absent gives null, a node of another
      class fails the cast. */
  function VariableAt(nodes: NodeMap, id: NodeId): Result<Option<Node>, Fault> {
    if id !in nodes then Ok(None)
    else if nodes[id].cls.Variable? then Ok(Some(nodes[id]))
    else Err(ClassCast)
  }

  /** The demand and position nodes exist as variables, the demand holds a
      string and the position a valid index: the routine cannot fail. */
  predicate WellTyped(st: State, w: Wheel) {
    var d := DemandNodeId(st.ns, w);
    var p := PositionNodeId(st.ns, w);
    && d in st.nodes && st.nodes[d].cls.Variable? && st.nodes[d].cls.value.VString?
    && p in st.nodes && st.nodes[p].cls.Variable? && st.nodes[p].cls.value.VInt32?
    && CatchUp.InRange(Slots(w), st.nodes[p].cls.value.i)
  }

  /** The wheel as the abstract machine sees it. */
  function View(st: State, w: Wheel): (s: CatchUp.Pair)
    requires WellTyped(st, w)
    ensures CatchUp.InRange(Slots(w), s.pos)
  {
    CatchUp.Pair(
      st.nodes[DemandNodeId(st.ns, w)].cls.value.s,
      st.nodes[PositionNodeId(st.ns, w)].cls.value.i,
      Pending(st, w))
  }

  function SetValue(n: Node, v: Variant): Node
    requires n.cls.Variable?
  {
    n.(cls := n.cls.(value := v))
  }

  /** `incFilterPos` / `incDisperserPos`: read the demand and the position; unless
      the slot already carries the demand, store the next position, and schedule
      another run while they still differ. A missing node, a value of the wrong
      class or an out-of-range position throws before anything is stored. */
  function IncPos(st: State, w: Wheel): (r: Result<State, Fault>)
    ensures r.Ok? <==> WellTyped(st, w)
    ensures r.Ok? ==> WellTyped(r.value, w) && View(r.value, w) == CatchUp.Advance(Slots(w), View(st, w))
    ensures r.Ok? ==> r.value.ns == st.ns && r.value.nodes.Keys == st.nodes.Keys
    // `setValue` replaces the position node's value, and nothing else changes
    ensures r.Ok? ==> var p := PositionNodeId(st.ns, w);
      r.value.nodes == st.nodes[p := SetValue(st.nodes[p], r.value.nodes[p].cls.value)]
    ensures r.Ok? ==> Pending(r.value, Other(w)) == Pending(st, Other(w))
  {
    var cat := Slots(w);
    var posId := PositionNodeId(st.ns, w);
    match (VariableAt(st.nodes, DemandNodeId(st.ns, w)), VariableAt(st.nodes, posId))
    case (Err(f), _) => Err(f)
    case (_, Err(f)) => Err(f)
    case (Ok(None), _) => Err(NullPointer)
    case (Ok(Some(demandNode)), Ok(posNode)) =>
      if !demandNode.cls.value.VString? then Err(ClassCast)
      else if posNode.None? then Err(NullPointer)
      else if !posNode.value.cls.value.VInt32? then Err(ClassCast)
      else
        var demand := demandNode.cls.value.s;
        var pos := posNode.value.cls.value.i;
        if !(0 <= pos < |cat|) then Err(IndexOutOfBounds)
        else if cat[pos] == demand then Ok(st)
        else
          var o := CatchUp.Step(cat, demand, pos);
          var moved := st.nodes[posId := SetValue(posNode.value, VInt32(o.pos))];
          Ok(WithPending(st.(nodes := moved), w, Pending(st, w) + (if o.reschedule then 1 else 0)))
  }

  /** One scheduled run of wheel `w` fires. An exception inside a scheduled run
      ends that chain and changes nothing else. */
  function FireTick(st: State, w: Wheel): (t: State)
    ensures t.ns == st.ns && t.nodes.Keys == st.nodes.Keys
    ensures Pending(t, Other(w)) == Pending(st, Other(w))
    ensures WellTyped(st, w) && Pending(st, w) > 0 ==>
      WellTyped(t, w) && View(t, w) == CatchUp.Tick(Slots(w), View(st, w))
    // a well-typed run changes only the position node's value
    ensures WellTyped(st, w) && Pending(st, w) > 0 ==> var p := PositionNodeId(st.ns, w);
      t.nodes == st.nodes[p := SetValue(st.nodes[p], t.nodes[p].cls.value)]
    // a run that throws only ends its chain
    ensures Pending(st, w) > 0 && !WellTyped(st, w) ==> t == WithPending(st, w, Pending(st, w) - 1)
    ensures Pending(st, w) == 0 ==> t == st
  {
    if Pending(st, w) == 0 then st
    else
      var fired := WithPending(st, w, Pending(st, w) - 1);
      match IncPos(fired, w)
      case Ok(t) => t
      case Err(_) => fired
  }

  /** One timer event of a well-typed wheel, fired or not, is the abstract `Fire`. */
  lemma {:induction false} FireTickRefines(st: State, w: Wheel)
    requires WellTyped(st, w)
    ensures WellTyped(FireTick(st, w), w) && View(FireTick(st, w), w) == CatchUp.Fire(Slots(w), View(st, w))
  {
  }

  /** `n` timer events of wheel `w` in a row. */
  function FireTicks(st: State, w: Wheel, n: nat): (t: State)
    ensures t.ns == st.ns && t.nodes.Keys == st.nodes.Keys
    ensures Pending(t, Other(w)) == Pending(st, Other(w))
    decreases n
  {
    if n == 0 then st else FireTicks(FireTick(st, w), w, n - 1)
  }

  /** On the node map, timer events of a well-typed wheel do exactly what the
      abstract machine's timer events do. */
  lemma {:induction false} FireTicksRefines(st: State, w: Wheel, n: nat)
    requires WellTyped(st, w)
    ensures WellTyped(FireTicks(st, w, n), w)
    ensures View(FireTicks(st, w, n), w) == CatchUp.RunTicks(Slots(w), View(st, w), n)
    decreases n
  {
    FireTicksWellTyped(st, w, n);
    if n > 0 {
      var t := FireTick(st, w);
      FireTickRefines(st, w);
      FireTicksRefines(t, w, n - 1);
      assert FireTicks(st, w, n) == FireTicks(t, w, n - 1);
      assert CatchUp.RunTicks(Slots(w), View(st, w), n) == CatchUp.RunTicks(Slots(w), View(t, w), n - 1);
    }
  }

  /** Timer events keep a well-typed wheel well typed. */
  lemma {:induction false} FireTicksWellTyped(st: State, w: Wheel, n: nat)
    requires WellTyped(st, w)
    ensures WellTyped(FireTicks(st, w, n), w)
    decreases n
  {
    if n > 0 {
      var t := FireTick(st, w);
      FireTickRefines(st, w);
      FireTicksWellTyped(t, w, n - 1);
      assert FireTicks(st, w, n) == FireTicks(t, w, n - 1);
    }
  }

  // ---------------------------------------------------------------------------
  // Write

  datatype WriteValue = WriteValue(id: NodeId, attributeId: nat, value: Variant, indexRange: Option<string>)

  /** The toolkit's `writeAttribute` on one node, with the request's context
      already applied: the updated node, or the status of the exception it threw. */
  type AttributeWriter = (Node, WriteValue) -> Result<Node, StatusCode>

  /** The outcome of a write batch: one status per request and the new state, or,
      when an increment routine threw, the state reached when it did. */
  datatype WriteOutcome = Completed(statuses: seq<StatusCode>, state: State) | Aborted(state: State, fault: Fault)

  /** The wheel a request triggers: only a write that succeeded, and only on the
      exact id of a wheel's demand variable. */
  function Triggered(st: State, wv: WriteValue, writeAttribute: AttributeWriter): (r: Option<Wheel>)
    ensures r.Some? <==> (
      && wv.id in st.nodes && writeAttribute(st.nodes[wv.id], wv).Ok?
      && (wv.id == DemandNodeId(st.ns, FilterWheel) || wv.id == DemandNodeId(st.ns, DisperserWheel)))
    ensures r.Some? ==> wv.id == DemandNodeId(st.ns, r.value) && wv.id != DemandNodeId(st.ns, Other(r.value))
  {
    PairIdsDistinct(st.ns);
    if wv.id in st.nodes && writeAttribute(st.nodes[wv.id], wv).Ok? then
      if wv.id == DemandNodeId(st.ns, FilterWheel) then Some(FilterWheel)
      else if wv.id == DemandNodeId(st.ns, DisperserWheel) then Some(DisperserWheel)
      else None
    else None
  }

  /** One request of a write batch. */
  function WriteOne(st: State, wv: WriteValue, writeAttribute: AttributeWriter): (r: WriteOutcome)
    ensures r.state.ns == st.ns && r.state.nodes.Keys == st.nodes.Keys
    ensures r.Completed? ==> |r.statuses| == 1
    // an unknown node fails its own slot and changes nothing
    ensures wv.id !in st.nodes ==> r == Completed([BadNodeIdUnknown], st)
    // a failed write reports the exception's status and changes nothing
    ensures wv.id in st.nodes && writeAttribute(st.nodes[wv.id], wv).Err? ==>
      r == Completed([writeAttribute(st.nodes[wv.id], wv).error], st)
    // a write that triggers nothing completes and touches no wheel
    ensures Triggered(st, wv, writeAttribute).None? ==>
      && r.Completed?
      && (forall w :: Pending(r.state, w) == Pending(st, w))
      && (forall id :: id in st.nodes && id != wv.id ==> r.state.nodes[id] == st.nodes[id])
    // a successful write that triggers nothing is Good and stores the written node
    ensures wv.id in st.nodes && writeAttribute(st.nodes[wv.id], wv).Ok? && Triggered(st, wv, writeAttribute).None? ==>
      r == Completed([Good], st.(nodes := st.nodes[wv.id := writeAttribute(st.nodes[wv.id], wv).value]))
    // a triggering write stores the node, then runs that wheel's routine once
    ensures Triggered(st, wv, writeAttribute).Some? ==>
      r == Trigger(st.(nodes := st.nodes[wv.id := writeAttribute(st.nodes[wv.id], wv).value]), Triggered(st, wv, writeAttribute).value)
    // a triggering write leaves the other wheel's schedule alone
    ensures Triggered(st, wv, writeAttribute).Some? ==>
      var w := Triggered(st, wv, writeAttribute).value;
      Pending(r.state, Other(w)) == Pending(st, Other(w))
  {
    if wv.id !in st.nodes then Completed([BadNodeIdUnknown], st)
    else match writeAttribute(st.nodes[wv.id], wv)
      case Err(code) => Completed([code], st)
      case Ok(written) =>
        var stored := st.(nodes := st.nodes[wv.id := written]);
        if wv.id == DemandNodeId(st.ns, FilterWheel) then Trigger(stored, FilterWheel)
        else if wv.id == DemandNodeId(st.ns, DisperserWheel) then Trigger(stored, DisperserWheel)
        else Completed([Good], stored)
  }

  /** The synchronous run inside a write to a demand variable: on success the slot
      is Good; an exception escapes the whole batch. */
  function Trigger(st: State, w: Wheel): (r: WriteOutcome)
    ensures r.state.ns == st.ns && r.state.nodes.Keys == st.nodes.Keys
    ensures r.Completed? <==> WellTyped(st, w)
    ensures r.Completed? ==> (
      && r.statuses == [Good] && WellTyped(r.state, w)
      && View(r.state, w) == CatchUp.Advance(Slots(w), View(st, w)))
    ensures Pending(r.state, Other(w)) == Pending(st, Other(w))
    // on success only the position node's value changes
    ensures r.Completed? ==> var p := PositionNodeId(st.ns, w);
      r.state.nodes == st.nodes[p := SetValue(st.nodes[p], r.state.nodes[p].cls.value)]
    // an exception leaves the state as it was when the routine was entered
    ensures r.Aborted? ==> r.state == st
  {
    match IncPos(st, w)
    case Ok(t) => Completed([Good], t)
    case Err(f) => Aborted(st, f)
  }

  /** The rest of a batch after `done`. */
  function Continue(done: WriteOutcome, rest: seq<WriteValue>, writeAttribute: AttributeWriter): WriteOutcome
    decreases |rest|, 1
  {
    match done
    case Aborted(_, _) => done
    case Completed(statuses, s) =>
      match WriteBatch(s, rest, writeAttribute)
      case Aborted(t, f) => Aborted(t, f)
      case Completed(more, t) => Completed(statuses + more, t)
  }

  /** `write`: the requests in order, one status each. */
  function WriteBatch(st: State, wvs: seq<WriteValue>, writeAttribute: AttributeWriter): (r: WriteOutcome)
    ensures r.state.ns == st.ns && r.state.nodes.Keys == st.nodes.Keys
    ensures r.Completed? ==> |r.statuses| == |wvs|
    ensures r.Completed? ==> forall i :: 0 <= i < |wvs| && wvs[i].id !in st.nodes ==> r.statuses[i] == BadNodeIdUnknown
    decreases |wvs|, 0
  {
    if |wvs| == 0 then Completed([], st)
    else Continue(WriteOne(st, wvs[0], writeAttribute), wvs[1..], writeAttribute)
  }

  // ---------------------------------------------------------------------------
  // The namespace and the abstract wheel

  /** After construction both wheels are well typed and sit at their initial,
      already converged state with nothing scheduled. */
  lemma StartedAtInitial(ns: nat, w: Wheel)
    ensures WellTyped(Started(ns), w)
    ensures View(Started(ns), w) == CatchUp.Initial(w)
    ensures CatchUp.Converged(Slots(w), View(Started(ns), w))
  {
    WheelRows(ns, w);
  }

  /** A client write of string `d` to a wheel's demand variable is exactly the
      abstract machine's `ClientWriteDemand`, and leaves the other wheel alone. */
  lemma WriteDemandRefines(st: State, wv: WriteValue, writeAttribute: AttributeWriter, w: Wheel, d: string)
    requires WellTyped(st, w)
    requires wv.id == DemandNodeId(st.ns, w)
    requires writeAttribute(st.nodes[wv.id], wv).Ok?
    requires writeAttribute(st.nodes[wv.id], wv).value.cls == st.nodes[wv.id].cls.(value := VString(d))
    ensures var r := WriteOne(st, wv, writeAttribute);
      && r.Completed? && r.statuses == [Good]
      && WellTyped(r.state, w)
      && View(r.state, w) == CatchUp.ClientWriteDemand(Slots(w), View(st, w), d)
      && (WellTyped(st, Other(w)) ==> WellTyped(r.state, Other(w)) && View(r.state, Other(w)) == View(st, Other(w)))
  {
    PairIdsDistinct(st.ns);
    var stored := st.(nodes := st.nodes[wv.id := writeAttribute(st.nodes[wv.id], wv).value]);
    assert WellTyped(stored, w);
    assert View(stored, w) == View(st, w).(demand := d);
    if w == FilterWheel {
      assert WriteOne(st, wv, writeAttribute) == Trigger(stored, FilterWheel);
    } else {
      assert WriteOne(st, wv, writeAttribute) == Trigger(stored, DisperserWheel);
    }
  }

  /** A client write of integer `p` to a wheel's position variable is Good and
      triggers nothing. In range it is the abstract `PositionWritten` event; out of
      range it leaves the wheel ill typed, so its next run throws. */
  lemma PositionWriteRefines(st: State, wv: WriteValue, writeAttribute: AttributeWriter, w: Wheel, p: int32)
    requires WellTyped(st, w)
    requires wv.id == PositionNodeId(st.ns, w)
    requires writeAttribute(st.nodes[wv.id], wv).Ok?
    requires writeAttribute(st.nodes[wv.id], wv).value.cls == st.nodes[wv.id].cls.(value := VInt32(p))
    ensures var r := WriteOne(st, wv, writeAttribute);
      && r.Completed? && r.statuses == [Good]
      && (forall v :: Pending(r.state, v) == Pending(st, v))
      && (CatchUp.InRange(Slots(w), p) ==>
            WellTyped(r.state, w) && View(r.state, w) == CatchUp.Apply(Slots(w), View(st, w), CatchUp.PositionWritten(p)))
      && (!CatchUp.InRange(Slots(w), p) ==> !WellTyped(r.state, w))
  {
    PairIdsDistinct(st.ns);
    assert Triggered(st, wv, writeAttribute).None?;
  }

  /** A fired timer of one wheel leaves the other wheel's view unchanged. */
  lemma FireTickSeparate(st: State, w: Wheel)
    requires WellTyped(st, Other(w))
    ensures WellTyped(FireTick(st, w), Other(w)) && View(FireTick(st, w), Other(w)) == View(st, Other(w))
  {
    PairIdsDistinct(st.ns);
  }

  // ---------------------------------------------------------------------------
  // Batches

  /** Statuses `c` of earlier requests in front of an outcome. */
  function Prepend(c: seq<StatusCode>, o: WriteOutcome): WriteOutcome {
    if o.Completed? then Completed(c + o.statuses, o.state) else o
  }

  /** Running the rest of a batch does not care about statuses already collected. */
  lemma ContinuePrepend(c: seq<StatusCode>, o: WriteOutcome, b: seq<WriteValue>, writeAttribute: AttributeWriter)
    ensures Continue(Prepend(c, o), b, writeAttribute) == Prepend(c, Continue(o, b, writeAttribute))
  {
    if o.Completed? {
      var rest := WriteBatch(o.state, b, writeAttribute);
      if rest.Completed? {
        assert c + (o.statuses + rest.statuses) == (c + o.statuses) + rest.statuses;
      }
    }
  }

  /** Splitting a write batch anywhere: the second part runs on the state the
      first part left. */
  lemma {:induction false} WriteAppend(st: State, a: seq<WriteValue>, b: seq<WriteValue>, writeAttribute: AttributeWriter)
    ensures WriteBatch(st, a + b, writeAttribute) == Continue(WriteBatch(st, a, writeAttribute), b, writeAttribute)
    decreases |a|
  {
    if |a| == 0 {
      assert a + b == b;
      ContinuePrepend([], WriteBatch(st, b, writeAttribute), [], writeAttribute);
      assert Prepend([], WriteBatch(st, b, writeAttribute)) == WriteBatch(st, b, writeAttribute);
    } else {
      var one := WriteOne(st, a[0], writeAttribute);
      assert (a + b)[0] == a[0];
      assert (a + b)[1..] == a[1..] + b;
      assert WriteBatch(st, a + b, writeAttribute) == Continue(one, a[1..] + b, writeAttribute);
      assert WriteBatch(st, a, writeAttribute) == Continue(one, a[1..], writeAttribute);
      if one.Completed? {
        WriteAppend(one.state, a[1..], b, writeAttribute);
        ContinuePrepend(one.statuses, WriteBatch(one.state, a[1..], writeAttribute), b, writeAttribute);
      }
    }
  }

  /** A batch that addresses no demand variable never runs a wheel and never
      aborts. */
  lemma {:induction false} NoDemandNoRun(st: State, wvs: seq<WriteValue>, writeAttribute: AttributeWriter)
    requires forall i :: 0 <= i < |wvs| ==> wvs[i].id != DemandNodeId(st.ns, FilterWheel) && wvs[i].id != DemandNodeId(st.ns, DisperserWheel)
    ensures var r := WriteBatch(st, wvs, writeAttribute);
      r.Completed? && forall w :: Pending(r.state, w) == Pending(st, w)
    decreases |wvs|
  {
    if |wvs| > 0 {
      var one := WriteOne(st, wvs[0], writeAttribute);
      assert one.Completed?;
      NoDemandNoRun(one.state, wvs[1..], writeAttribute);
    }
  }

  /** The batch outcome with status `c` inserted at slot `k`. */
  function InsertStatus(o: WriteOutcome, k: nat, c: StatusCode): WriteOutcome {
    match o
    case Aborted(_, _) => o
    case Completed(statuses, s) =>
      if k <= |statuses| then Completed(statuses[..k] + [c] + statuses[k..], s) else o
  }

  /** Sibling independence: a request for an unknown node, wherever it sits in a
      batch, gets Bad_NodeIdUnknown in its own slot and changes neither the other
      slots nor the resulting state. */
  lemma UnknownIdInert(st: State, pre: seq<WriteValue>, bad: WriteValue, post: seq<WriteValue>, writeAttribute: AttributeWriter)
    requires bad.id !in st.nodes
    ensures WriteBatch(st, pre + [bad] + post, writeAttribute)
      == InsertStatus(WriteBatch(st, pre + post, writeAttribute), |pre|, BadNodeIdUnknown)
  {
    assert pre + [bad] + post == pre + ([bad] + post);
    WriteAppend(st, pre, [bad] + post, writeAttribute);
    WriteAppend(st, pre, post, writeAttribute);
    var first := WriteBatch(st, pre, writeAttribute);
    if first.Completed? {
      UnknownFirst(first.state, bad, post, writeAttribute);
      var rest := WriteBatch(first.state, post, writeAttribute);
      if rest.Completed? {
        InsertAt(first.statuses, rest.statuses, BadNodeIdUnknown);
      }
    }
  }

  lemma InsertAt(c: seq<StatusCode>, more: seq<StatusCode>, x: StatusCode)
    ensures (c + more)[..|c|] + [x] + (c + more)[|c|..] == c + ([x] + more)
  {
    assert (c + more)[..|c|] == c;
    assert (c + more)[|c|..] == more;
  }

  /** An unknown node at the head of a batch only prepends its status. */
  lemma UnknownFirst(st: State, bad: WriteValue, post: seq<WriteValue>, writeAttribute: AttributeWriter)
    requires bad.id !in st.nodes
    ensures var r := WriteBatch(st, post, writeAttribute);
      WriteBatch(st, [bad] + post, writeAttribute)
        == if r.Completed? then Completed([BadNodeIdUnknown] + r.statuses, r.state) else r
  {
    assert ([bad] + post)[1..] == post;
    assert ([bad] + post)[0] == bad;
  }

  /** A batch that addresses neither of a wheel's two variables leaves that wheel
      exactly as it was, whatever else the batch writes or triggers. */
  lemma {:induction false} OtherWritesSeparate(st: State, wvs: seq<WriteValue>, writeAttribute: AttributeWriter, w: Wheel)
    requires WellTyped(st, w)
    requires forall i :: 0 <= i < |wvs| ==> wvs[i].id != DemandNodeId(st.ns, w) && wvs[i].id != PositionNodeId(st.ns, w)
    ensures var r := WriteBatch(st, wvs, writeAttribute);
      WellTyped(r.state, w) && View(r.state, w) == View(st, w)
    decreases |wvs|
  {
    if |wvs| > 0 {
      var one := WriteOne(st, wvs[0], writeAttribute);
      OtherWriteSeparate(st, wvs[0], writeAttribute, w);
      assert WriteBatch(st, wvs, writeAttribute) == Continue(one, wvs[1..], writeAttribute);
      if one.Completed? {
        OtherWritesSeparate(one.state, wvs[1..], writeAttribute, w);
      }
    }
  }

  /** One request that addresses neither of a wheel's two variables leaves that
      wheel exactly as it was. */
  lemma OtherWriteSeparate(st: State, wv: WriteValue, writeAttribute: AttributeWriter, w: Wheel)
    requires WellTyped(st, w)
    requires wv.id != DemandNodeId(st.ns, w) && wv.id != PositionNodeId(st.ns, w)
    ensures var r := WriteOne(st, wv, writeAttribute);
      WellTyped(r.state, w) && View(r.state, w) == View(st, w)
  {
    PairIdsDistinct(st.ns);
    if Triggered(st, wv, writeAttribute).Some? {
      var stored := st.(nodes := st.nodes[wv.id := writeAttribute(st.nodes[wv.id], wv).value]);
      assert Triggered(st, wv, writeAttribute).value == Other(w);
      assert WriteOne(st, wv, writeAttribute) == Trigger(stored, Other(w));
    }
  }

  /** A successful client write of slot `k`'s name to a wheel's demand, followed
      by timer events only, brings the position to slot `k` and leaves nothing
      scheduled, after exactly `QuiesceTime` events. */
  lemma WriteConverges(st: State, w: Wheel, k: nat, wv: WriteValue, writeAttribute: AttributeWriter)
    requires WellTyped(st, w) && k < |Slots(w)|
    requires wv.id == DemandNodeId(st.ns, w)
    requires writeAttribute(st.nodes[wv.id], wv).Ok?
    requires writeAttribute(st.nodes[wv.id], wv).value.cls == st.nodes[wv.id].cls.(value := VString(Slots(w)[k]))
    ensures var r := WriteOne(st, wv, writeAttribute);
      && r.Completed? && WellTyped(r.state, w) && CatchUp.Live(Slots(w), View(r.state, w))
      && var n := CatchUp.QuiesceTime(Slots(w), k, View(r.state, w));
      && WellTyped(FireTicks(r.state, w, n), w)
      && View(FireTicks(r.state, w, n), w) == CatchUp.Pair(Slots(w)[k], k, 0)
      && forall j :: 0 <= j < n ==> Pending(FireTicks(r.state, w, j), w) > 0
  {
    var cat := Slots(w);
    SlotsWellFormed(w);
    WriteDemandRefines(st, wv, writeAttribute, w, cat[k]);
    var r := WriteOne(st, wv, writeAttribute);
    CatchUp.Converges(cat, k, View(r.state, w));
    var n := CatchUp.QuiesceTime(cat, k, View(r.state, w));
    FireTicksRefines(r.state, w, n);
    forall j | 0 <= j < n
      ensures Pending(FireTicks(r.state, w, j), w) > 0
    {
      FireTicksRefines(r.state, w, j);
    }
  }
}


=== FILE: policies.dfy ===
/** The two identity-to-access-level policies installed on the admin-restricted
    variables. Enforcing a policy is the toolkit's job; the model states only what
    each policy grants. */
module Policies {
  import opened AddressSpace

  /** The source compares the identity object with the string "admin". */
  predicate IsAdmin(identity: Identity) {
    identity == StringIdentity("admin")
  }

  /** Policy of the `OnlyAdminCanRead` variable: only "admin" may read it, and
      "admin" may also write it. */
  function OnlyAdminCanRead(identity: Identity): (a: AccessLevel)
    ensures CanRead(a) <==> IsAdmin(identity)
    ensures CanWrite(a) <==> IsAdmin(identity)
  {
    if identity == StringIdentity("admin") then ReadWrite else NoAccess
  }

  /** Policy of the `OnlyAdminCanWrite` variable: everyone may read it, only
      "admin" may write it. */
  function OnlyAdminCanWrite(identity: Identity): (a: AccessLevel)
    ensures CanRead(a)
    ensures CanWrite(a) <==> IsAdmin(identity)
  {
    if identity == StringIdentity("admin") then ReadWrite else ReadOnly
  }

  /** The access level a restricted node's policy grants an identity. */
  function Grant(p: Policy, identity: Identity): AccessLevel {
    match p
    case AdminOnlyRead => OnlyAdminCanRead(identity)
    case AdminOnlyWrite => OnlyAdminCanWrite(identity)
  }

  /** Admin gets full access under both policies; any other identity is denied
      writing under both, and reading exactly under the read-restricting one. */
  lemma GrantByIdentity(p: Policy, identity: Identity)
    ensures IsAdmin(identity) ==> Grant(p, identity) == ReadWrite
    ensures !IsAdmin(identity) ==> Grant(p, identity) == (if p == AdminOnlyRead then NoAccess else ReadOnly)
  {
  }
}

=== FILE: wrappers.dfy ===
/** Failure-compatible wrappers shared by the other modules. */
module Wrappers {

  /** An optional value: `None` stands for the source's `null` / `Optional.empty()`. */
  datatype Option<+T> = None | Some(value: T)

  /** A value or the error that replaced it (a thrown exception, a failed future). */
  datatype Result<+T, +E> = Ok(value: T) | Err(error: E)
}
